=== FILE: README.md ===
# CityMarket listing logic, modelled in Dafny

This project models the pure logic inside the React components of the
CityMarket marketplace front end. That covers:

- how listings are filtered, searched, grouped into category sections and
  prepended on add;
- how phone numbers and one-time codes are normalised, and the two-step
  phone / code sign-in form;
- the listing form's picture list, publish gate, submitted record and reset;
- the item page's lookup, "time ago" caption, condition badge and page head;
- the category bar's click, the header's search submit, the item card's
  click, the code check of the sign-in form and the listing form's submit.
  Each of these returns an `Action` value (select a category, navigate to
  a path, or nothing) instead of causing a router side effect. The other
  sign-in handlers only change the form.

Modules follow the components:

- `Listings`: `App.tsx`, `CategoryPage.tsx`, `SearchPage.tsx`.
- `Grid`: `ItemGrid.tsx`, `CategorySection.tsx`.
- `Navigation`: `CategoryFilter.tsx`, `Header.tsx`, the card click of
  `ItemCard.tsx`.
- `Login`: `LoginPage.tsx`.
- `ListingForm`: `ListItemPage.tsx`.
- `ItemDetail`: `ItemPage.tsx`. `ItemCard.tsx` holds an identical
  `formatTimeAgo` whose only use is commented out.

Four support modules hold what the components share:

- `Types`: the records of `src/types/index.ts`, with the listing condition
  as a four-valued datatype.
- `Routes`: the route table of `App.tsx`, with a path parser proved to
  invert path construction.
- `Text`: ASCII trimming, lowercasing, substring search, digit stripping
  and decimal rendering.
- `Sequences`: JavaScript's `filter`, `find` and `map`, and the
  subsequence relation used to say that a view keeps input order.

The following are parameters:

- the clock reading, as integer milliseconds;
- the provider's replies, as `Reply` values: resolved with an optional
  error string, or thrown with a message;
- `encodeURIComponent`, `parseFloat` and `toLocaleString`, as functions.

Each asynchronous handler is one step from its input state to the state
after its `finally` block.

Behaviour the model follows from the code rather than from the page's
intent:

- The category page treats an empty or absent route id like "all" when it
  filters, but the home filter keeps only items of category `""` for an
  empty id. The two therefore agree for every non-empty id. An absent id
  still shows "not found", because the category lookup fails.
- The search page trims only for its blank check; a padded query is
  matched with its padding.
- Neither the "list an item" page nor the sign-in page is mounted by any
  route in `App.tsx`. Each is modelled on its own.
- The sign-in form's submit buttons are disabled while a call is pending,
  for a blank phone, and unless the code has six characters.
  `Login.Apply` ignores a press of a disabled button; the handlers
  themselves check only for a blank field.

## Model

| member | source | states |
|---|---|---|
| Types.CategoryIds | src/types/index.ts:18-23 | the ids of the category list, one per category, in list order |
| Routes.RouteRoundTrip | src/App.tsx:79-84 | parsing, with the model's path parser, the path built for any route gives back that route; see "## Left out" for how the router differs |
| Routes.RoutePathInjective | src/App.tsx:79-84 | different routes are navigated to with different paths |
| Sequences.Filter | src/App.tsx:25 | the kept elements are exactly the input elements satisfying the predicate, and there are no more of them than input elements |
| Sequences.Find | src/components/CategoryPage.tsx:17 | no result exactly when no element satisfies the predicate; otherwise an element that does, with none satisfying it before it |
| Sequences.FilterIsSubsequence | src/App.tsx:25 | filtering keeps input order: its result is a subsequence of the input |
| Sequences.FilterKeepsEveryCopy | src/App.tsx:25 | an element satisfying the predicate occurs in the result as often as in the input |
| Text.TrimIdempotent | src/components/Header.tsx:16-17 | trimming twice is trimming once, and a string is blank exactly when its trim is |
| Text.LowerIdempotent | src/components/SearchPage.tsx:20 | lowercasing a lowercased string changes nothing |
| Text.IncludesIffOccurs | src/components/SearchPage.tsx:23-27 | `includes` holds exactly when the needle occurs at some position of the haystack |
| Text.IncludesTransitive | src/components/SearchPage.tsx:23-27 | a string containing a string that contains a third also contains the third |
| Text.Digits | src/components/LoginPage.tsx:71 | only digits, a subsequence of the input that keeps every copy of every digit: exactly the input's digits, in order |
| Text.DigitsOne | src/components/LoginPage.tsx:71 | one character strips to itself when it is a digit and to nothing otherwise |
| Text.DigitsAppend | src/components/LoginPage.tsx:71 | the digit strip of a concatenation is the concatenation of the strips |
| Text.NatToString | src/components/CategoryPage.tsx:68 | a number renders as a non-empty digit string without a leading zero |
| Text.NatToStringRoundTrip | src/components/CategoryPage.tsx:68 | reading a rendered number back gives the number |
| Text.NatToStringInjective | src/components/ListItemPage.tsx:46 | different numbers render differently |
| Text.CanonicalDecimalRoundTrip | src/components/ListItemPage.tsx:46 | a digit string without leading zeros is the decimal rendering of its value |
| Listings.FilterByCategory | src/App.tsx:20-29 | under "all" the view is the item list itself; otherwise it holds exactly the items of the selected category |
| Listings.FilterByCategoryKeepsOrder | src/App.tsx:25 | the view is an order-preserving subsequence of the items, so it is no longer |
| Listings.FilterByCategoryKeepsCopies | src/App.tsx:25 | every copy of an item of the selected category appears in the view |
| Listings.InitialApp | src/App.tsx:15-18 | the first render selects "all", has an empty search text, and its view shows every seeded item |
| Listings.WithDefaultImage | src/App.tsx:32-35 | the added item keeps every submitted field; a non-empty submitted image is kept and an empty one becomes the default picture |
| Listings.AddItem | src/App.tsx:36 | the list grows by one, the new item at its head and the old list unchanged behind it |
| Listings.HandleAddItem | src/App.tsx:31-37 | adding changes only the item list: the selection and search text stay |
| Listings.AddedItemHeadsView | src/App.tsx:24-36 | after an add, the view for "all" or for the new item's category starts with the new item |
| Listings.AddOtherCategoryKeepsView | src/App.tsx:24-36 | an item of another category leaves a category view unchanged |
| Listings.CountLabel | src/components/CategoryPage.tsx:68 | the rendered count followed directly by " item available" when the count is 1 and by " items available" otherwise |
| Listings.CategoryItems | src/components/CategoryPage.tsx:18-21 | an absent, empty or "all" id gives the items unchanged; any other id gives exactly the items of that category |
| Listings.CategoryPageAgreesWithHome | src/components/CategoryPage.tsx:19-20 | for every non-empty id the category page lists what the home filter shows for that id |
| Listings.CategoryPage | src/components/CategoryPage.tsx:17-23 | "not found" exactly when the id is absent or names no listed category; otherwise the first listed category with that id, its items and their count caption |
| Listings.MatchesQuery | src/components/SearchPage.tsx:22-27 | an item matches exactly when the query occurs at some position of its lowercased title, description, category, seller name or location |
| Listings.UnknownCategoryNotFound | src/components/CategoryPage.tsx:17-23 | an id naming no category gives "not found" whatever the items are |
| Listings.Search | src/components/SearchPage.tsx:17-29 | a blank query finds nothing; otherwise the results are exactly the items where one of the five lowercased fields contains the lowercased query |
| Listings.SearchKeepsOrder | src/components/SearchPage.tsx:21 | results are an order-preserving subsequence of the items |
| Listings.SearchKeepsCopies | src/components/SearchPage.tsx:21-28 | every copy of a matching item is in the results |
| Listings.SearchIgnoresQueryCase | src/components/SearchPage.tsx:20 | searching for a query and for its lowercase give the same results |
| Listings.SearchAntiMonotone | src/components/SearchPage.tsx:21-28 | a query containing another finds a subsequence of what the other finds |
| Listings.SearchKeepsPadding | src/components/SearchPage.tsx:18-20 | padding is matched: an item found by "lamp" can be missed by " lamp" |
| Grid.GroupByCategory | src/components/ItemGrid.tsx:27-33 | every list of the grouping is non-empty and the last item's category has one; Grid.GroupKeys and Grid.GroupIsFilter characterise it |
| Grid.GroupKeys | src/components/ItemGrid.tsx:27-33 | the grouping has a key for exactly the categories that occur among the items |
| Grid.GroupIsFilter | src/components/ItemGrid.tsx:27-33 | each group is the items of its category in input order |
| Grid.GroupsAreHomogeneous | src/components/ItemGrid.tsx:28-31 | every group is non-empty and holds only items of its own category |
| Grid.EachItemInExactlyOneGroup | src/components/ItemGrid.tsx:27-33 | every item lies in the group of its category and in no other |
| Grid.ConcatFiltersSplit | src/components/ItemGrid.tsx:27-33 | for distinct keys, the category filters together hold the items of those categories, copies included |
| Grid.ConcatGroups | src/components/ItemGrid.tsx:27-33 | over keys of the grouping, concatenating groups is concatenating category filters |
| Grid.GroupsPartition | src/components/ItemGrid.tsx:27-33 | the groups partition the items: together they are a permutation of the input, so their sizes sum to its length |
| Grid.CategorySection | src/components/CategorySection.tsx:24-50 | nothing for no items; otherwise the badge counts all items and the first min(12, n) are shown in order |
| Grid.ViewAll | src/components/CategorySection.tsx:26-28 | "view all" always navigates to that category's page |
| Grid.SectionsFor | src/components/ItemGrid.tsx:37-48 | a section exists exactly for each listed category other than "all" with a non-empty group, built from that group |
| Grid.SectionsNameTheirCategory | src/components/ItemGrid.tsx:37-48 | every section shows the name and icon of a listed category with its id |
| Grid.SectionsFollowCategories | src/components/ItemGrid.tsx:37-39 | sections follow the category list's order, one per category when ids are unique |
| Grid.ItemGrid | src/components/ItemGrid.tsx:12-48 | the empty state exactly for no items, otherwise the sections |
| Grid.GridSections | src/components/ItemGrid.tsx:38-45 | every section is a listed category other than "all", counts that category's items and shows a prefix of at most 12 of them |
| Grid.GridSectionsComplete | src/components/ItemGrid.tsx:38 | every listed category other than "all" that has an item gets a section |
| Grid.UnlistedCategoryHidden | src/components/ItemGrid.tsx:38 | an item of an unlisted category is shown in no section |
| Navigation.CategoryClick | src/components/CategoryFilter.tsx:18-24 | "all" selects itself without navigating; any other id navigates to its category page |
| Navigation.SelectionAfterClick | src/components/CategoryFilter.tsx:19-22 | only the "all" button changes the selection |
| Navigation.FilterButtons | src/components/CategoryFilter.tsx:30-43 | one button per category in list order, showing the stored count, highlighted exactly when it is the selection |
| Navigation.AtMostOneHighlighted | src/components/CategoryFilter.tsx:35 | with unique ids at most one button is highlighted, and one is exactly when the selection is listed |
| Navigation.SearchSubmit | src/components/Header.tsx:14-19 | nothing for a blank query, otherwise the search route carrying the encoded trimmed query |
| Navigation.SearchSubmitSeesOnlyTrimmed | src/components/Header.tsx:16-17 | the decision for a query equals the decision for its trim |
| Navigation.HeaderQueryIsNeverBlank | src/components/Header.tsx:16-17 | when the header navigates, the carried query is non-blank and trimmed, so the search page runs the five-field match on it |
| Navigation.CardClick | src/components/ItemCard.tsx:33-35 | a card navigates to its own item's page |
| Login.FormatPhone | src/components/LoginPage.tsx:69-79 | a '+' then digits only; "+" alone for no digits; country code 1 added exactly when the digits do not start with 1 |
| Login.FormattedPhoneIsFixedPoint | src/components/LoginPage.tsx:69-79 | a string is a formatted number exactly when formatting leaves it unchanged |
| Login.FormatPhoneIdempotent | src/components/LoginPage.tsx:69-79 | formatting the fed-back formatted value changes nothing |
| Login.SanitizeOtp | src/components/LoginPage.tsx:218 | the first min(6, n) digits of the input's n digits |
| Login.SanitizeOtpIdempotent | src/components/LoginPage.tsx:218 | sanitising a sanitised code changes nothing |
| Login.ReplyError | src/components/LoginPage.tsx:36-43 | an error is stored exactly when the reply carries a non-empty error or the call threw; it is the reply's error, or the thrown message, or the fallback when that message is empty |
| Login.SubmitPhone | src/components/LoginPage.tsx:29-47 | a blank phone changes nothing; otherwise the code step is entered exactly when the reply has no error, else the error is stored and the step kept |
| Login.SubmitOtp | src/components/LoginPage.tsx:49-67 | a blank code changes nothing; otherwise the form navigates home exactly when the reply has no error, else it stores the reply's error text (or the fallback message) and stays |
| Login.GoogleSignIn | src/components/LoginPage.tsx:17-27 | only the error changes: empty when nothing was thrown, else the thrown message, or "Failed to sign in with Google" when it is empty |
| Login.UseDifferentPhone | src/components/LoginPage.tsx:239-243 | back to the phone step with the code and error cleared and the phone kept |
| Login.Apply | src/components/LoginPage.tsx:176-243 | each field changes only through its own event; a press of a disabled button changes nothing, and a press of an enabled one runs its handler |
| Login.ApplyKeepsWellFormed | src/components/LoginPage.tsx:186-218 | every interaction keeps the phone formatted or empty and the code at most six digits |
| Login.RunKeepsWellFormed | src/components/LoginPage.tsx:186-218 | every form reachable by interactions stays well formed |
| Login.OtpStepOnlyAfterCleanReply | src/components/LoginPage.tsx:31-41 | the code step is entered only by sending a non-blank phone whose reply has no error |
| Login.TypedPhoneNeverBlank | src/components/LoginPage.tsx:186-196 | once typed in, the phone is never blank, even with every digit deleted |
| Login.SendCodeDisabled | src/components/LoginPage.tsx:196 | an enabled send-code button implies nothing pending and a non-empty phone |
| Login.VerifyDisabled | src/components/LoginPage.tsx:229 | the verify button is enabled exactly when nothing is pending and the code has six characters |
| Login.TypedPhoneEnablesSend | src/components/LoginPage.tsx:186-196 | typing a phone enables the send-code button of an idle form |
| Login.SixDigitsEnableVerify | src/components/LoginPage.tsx:218-229 | typing at least six digits enables the verify button of an idle form |
| Login.VerifyNeedsFullCode | src/components/LoginPage.tsx:229 | a verify press acts only with a full six-digit code |
| Login.SendCodeAdvances | src/components/LoginPage.tsx:29-47 | for a non-blank phone, a send-code press with a clean reply enters the code step, and one with an error stores it and keeps the step |
| Login.VerifyActs | src/components/LoginPage.tsx:49-67 | with a full code, a verify press runs the code check and stores the reply's error, or clears it on a clean reply |
| ListingForm.ImageUrls | src/components/ListItemPage.tsx:79-90 | the data URLs read are exactly those of the image files of the batch, and the first is the first image file's |
| ListingForm.ImageUrlsAppend | src/components/ListItemPage.tsx:79-90 | the URLs of two batches in a row are the first batch's followed by the second's, so selection order is kept |
| ListingForm.ImageUrlsOne | src/components/ListItemPage.tsx:80 | a single file yields its data URL exactly when its type starts with "image/" |
| ListingForm.UploadAsWritten | src/components/ListItemPage.tsx:76-92 | below ten pictures every image file of the batch is appended; at ten or more nothing is |
| ListingForm.UploadAsWrittenExceedsCap | src/components/ListItemPage.tsx:76-92 | nine pictures and two image files give eleven pictures |
| ListingForm.Upload | src/components/ListItemPage.tsx:76-92 | the old pictures stay in front, followed by image files of the batch in order until ten pictures are reached |
| ListingForm.UploadKeepsCap | src/components/ListItemPage.tsx:155 | uploading never takes the list past ten pictures |
| ListingForm.UploadAgreesWhenRoom | src/components/ListItemPage.tsx:76-92 | when the batch fits, the capped upload is the handler's upload |
| ListingForm.RemoveImage | src/components/ListItemPage.tsx:94-98 | an index in range removes that picture, keeping the others in order; any other index changes nothing |
| ListingForm.RemoveImageLosesOne | src/components/ListItemPage.tsx:94-98 | removal loses exactly the chosen picture and shortens the list by one |
| ListingForm.OrElse | src/components/ListItemPage.tsx:48-54 | an optional string when it is present and non-empty, else the fallback |
| ListingForm.SellerName | src/components/ListItemPage.tsx:48 | the full name when it is non-empty, else the phone when it is non-empty, else "Demo User" |
| ListingForm.SellerAvatar | src/components/ListItemPage.tsx:49 | the profile's avatar URL when it is non-empty, else the stock avatar |
| ListingForm.Payload | src/components/ListItemPage.tsx:43-55 | the submitted record keeps the form's fields, reads the price, takes the clock reading rendered in decimal as id and as posting time, has the seller of SellerName and SellerAvatar rated 4.8, and uses the first picture, or the default when there is none or it is empty |
| ListingForm.PayloadIdsDiffer | src/components/ListItemPage.tsx:46 | listings submitted at different times get different ids |
| ListingForm.SubmitListing | src/components/ListItemPage.tsx:38-74 | a returning callback resets the form and navigates home; a throwing one keeps the form and stays |
| ListingForm.CategoryOptions | src/components/ListItemPage.tsx:258 | exactly the categories other than "all" are offered, each as often as it is listed |
| ListingForm.CategoryOptionsKeepOrder | src/components/ListItemPage.tsx:258 | the options keep the category list's order |
| ListingForm.Apply | src/components/ListItemPage.tsx:76-98 | each field changes only through its own event or a publish; a publish keeps the form or resets it, and keeps it while the button is disabled |
| ListingForm.ApplyAsWritten | src/components/ListItemPage.tsx:76-92 | the page as written: a batch below ten pictures appends every image file's URL, and any other event is as in ListingForm.Apply |
| ListingForm.ApplyAgreesWhenRoom | src/components/ListItemPage.tsx:76-98 | the page as written and the corrected form differ only on a batch that does not fit |
| ListingForm.ApplyAsWrittenExceedsCap | src/components/ListItemPage.tsx:76-92 | on the page as written, one interaction takes nine pictures to eleven |
| ListingForm.ApplyKeepsCap | src/components/ListItemPage.tsx:155 | with the corrected upload of the Findings row, no interaction takes the form past ten pictures |
| ListingForm.RunKeepsCap | src/components/ListItemPage.tsx:155 | with the corrected upload of the Findings row, every reachable form holds at most ten pictures |
| ListingForm.PublishDisabled | src/components/ListItemPage.tsx:332 | a pending submit or the empty form disables the button; with nothing pending and all four of title, price, category and description filled it is enabled |
| ListingForm.PublishResetsIff | src/components/ListItemPage.tsx:332 | a publish press yields the empty form exactly when the form was empty or the button was enabled and the callback returned |
| ListingForm.CompleteFormPublishes | src/components/ListItemPage.tsx:332 | a complete form is publishable: a returning callback resets it and a throwing one keeps it |
| ListingForm.PublishResetsOnlyWhenComplete | src/components/ListItemPage.tsx:332 | a publish press resets the form only when all four required fields are filled and the callback returned |
| ItemDetail.AgeOf | src/components/ItemPage.tsx:33-41 | "just now" exactly under an hour (future posts included); otherwise the whole hours under a day, or the whole days, bracketing the elapsed time |
| ItemDetail.WholeDays | src/components/ItemPage.tsx:39 | flooring the whole hours over 24 gives the whole days elapsed |
| ItemDetail.AgeLabelRoundTrip | src/components/ItemPage.tsx:37-40 | reading a caption back gives the age it renders |
| ItemDetail.ReadAgeOnlyRendered | src/components/ItemPage.tsx:37-40 | a caption that reads back to an age is the caption rendered for that age, with no leading zeros |
| ItemDetail.FormatTimeAgo | src/components/ItemPage.tsx:33-41 | "Just now" exactly under an hour, and otherwise a caption that reads back to the age; by ItemDetail.ReadAgeOnlyRendered only the rendered caption does |
| ItemDetail.OlderLooksOlder | src/components/ItemCard.tsx:13-21 | an older listing never shows a younger age |
| ItemDetail.ConditionColor | src/components/ItemPage.tsx:43-51 | the gray class exactly for a string naming none of the four conditions |
| ItemDetail.ConditionColorsDistinct | src/components/ItemPage.tsx:45-48 | different conditions get different colours |
| ItemDetail.MetaDescription | src/components/ItemPage.tsx:57 | the first min(160, n) characters of the description, followed by "..." |
| ItemDetail.PageTitle | src/components/ItemPage.tsx:56 | the item title, then " - $" and the formatted price, then the site-name suffix naming CityMarket |
| ItemDetail.PageTitleShowsPrice | src/components/ItemPage.tsx:56 | for one title, two page titles are equal exactly when the formatted prices are |
| ItemDetail.FindItem | src/components/ItemPage.tsx:15 | nothing exactly when the id is absent or unknown; otherwise the first item with that id |
| ItemDetail.UniqueIdFindsItsItem | src/components/ItemPage.tsx:15 | with unique ids, an item's id finds that item |
| ItemDetail.ItemPage | src/components/ItemPage.tsx:15-57 | "not found" exactly when the lookup fails; otherwise the item with its age caption, badge and description |
| ItemDetail.CardOpensItsItem | src/components/ItemCard.tsx:33-35 | with unique ids, the page a card opens, as the model's path parser reads its path, shows that card's item |

## Findings

| source | as written | input that shows it | evidently intended | confidence | as-written member | corrected member |
|---|---|---|---|---|---|---|
| src/components/ListItemPage.tsx:80 | the limit reads the picture count from before the batch, so all image files of a batch pass whenever fewer than ten pictures were present | nine pictures, then two image files selected at once: eleven pictures | "Add up to 10 photos" (line 155): never more than ten | medium, not executed | ListingForm.UploadAsWritten | ListingForm.Upload |

`ListingForm.UploadAsWrittenExceedsCap` exhibits the overflow of the
handler as written. `ListingForm.UploadKeepsCap` proves the limit for the
corrected `ListingForm.Upload`, which `ListingForm.Apply` uses.
`ListingForm.UploadAgreesWhenRoom` shows that the two differ only when a
batch would overflow. At the level of the whole form,
`ListingForm.ApplyAsWritten` is the page as written and
`ListingForm.ApplyAsWrittenExceedsCap` takes it from nine pictures to
eleven; `ListingForm.ApplyKeepsCap` and `ListingForm.RunKeepsCap` hold for
the corrected `ListingForm.Apply`, and `ListingForm.ApplyAgreesWhenRoom`
shows the two agree on every interaction that fits.

## Left out

- Sign-in provider, session tracking and the OAuth redirect
  (`src/contexts/AuthContext.tsx`, `src/lib/supabase.ts`). Their replies are
  `Login.Reply` inputs.
- `src/components/ProfilePage.tsx`: presentation over fixed sample data.
- `src/components/SEOHead.tsx`: meta-tag injection. Only the title and
  description the item page passes to it are modelled.
- `src/data/mockData` and `AddItemModal` are not part of this model. The
  category list and the seed items are parameters.
- Rendering, CSS classes other than the condition badge, the drag
  highlighting and router side effects. Handlers return `Action` values.
- Login.Apply: pressing Enter with a disabled submit button is taken to
  do nothing, as HTML's implicit submission does; the Google button is
  gated on `loading` only. Each provider call is one atomic step, so
  `loading` is never true between steps and the `loading` half of the
  button gates never fires; editing the phone or code while a call is
  pending, which the page allows, is not modelled. Every event is accepted in every step and
  method, whereas the page shows the phone form only in the phone step of
  the phone method and the code form only in the code step. This is an
  over-approximation: each property proved for `Login.Apply` holds for
  all these events, so it holds for the subset the page shows.
- Login.GoogleSignIn: the redirect itself is not modelled; only the form
  state after the call returns or throws.
- ListingForm.Payload: `parseFloat` is the parameter `parsePrice`. The
  clock is a natural number `now` in milliseconds rather than a `Date`.
  The rating 4.8 and the price are carried as reals and never computed
  with. The images array and the raw condition string that the spread
  also passes are not part of the item record. The page reads the clock
  twice, `Date.now()` for the id and `new Date()` for the posting time;
  the model uses one reading `now` for both, so it does not cover the two
  differing by a millisecond.
- ListingForm.UploadAsWritten: the file readers finish asynchronously. The
  model assumes they finish in selection order and that each yields its
  data URL.
- ListingForm.Apply: a publish press is ignored while the button is
  disabled; pressing Enter in a field of an incomplete form is not
  modelled separately. The browser's checks of the price field
  (`type="number"`, `min="0"`, `step="0.01"`, `src/components/ListItemPage.tsx:236-238`)
  are not modelled: a negative price or one with more than two decimals
  is submitted here, whereas the page blocks it.
- Other navigation buttons are not modelled: the logo
  (`src/components/Header.tsx:27`), "Sell" (`src/components/Header.tsx:55`),
  the related-search buttons, which navigate with an unencoded query
  (`src/components/SearchPage.tsx:127`), and the back and cancel buttons
  of the category, item, search and listing pages. Each is a constant
  navigation with no logic to model.
- Routes.RouteRoundTrip: `Routes.ParseRoute` reads everything after
  "/item/" or "/category/" as the parameter and the whole text after
  "?q=" as the query. The router instead matches `:id` and `:categoryId`
  to exactly one non-empty path segment and percent-decodes it, and the
  search page reads `q` through `URLSearchParams`. The round trip
  therefore says nothing about ids or category ids that contain '/', '?',
  '#' or '%': the item id "a/b", for example, gives "/item/a/b", which no
  route matches.
- ItemDetail.CardOpensItsItem: rests on `Routes.ParseRoute`, so it holds
  for item ids free of '/', '?', '#' and '%' only; see the line above.
- Grid.GroupByCategory: the source groups into a plain object, not a map.
  A category id naming an `Object.prototype` member ("constructor",
  "toString", "__proto__") would make the first `push` throw and the
  section test read the inherited member. The model assumes category ids
  never name such members.
- Navigation.SearchSubmit: `encodeURIComponent` is the parameter `encode`
  and is not interpreted.
- ItemDetail.PageTitle: `toLocaleString` is the parameter `formatPrice`.
- ItemDetail.MetaDescription: counts characters, whereas `substring`
  counts UTF-16 code units.
- Text.Lower: lowercases ASCII letters only, not all of Unicode.
- Text.Trim: removes ASCII whitespace only, not every Unicode space.
- ItemDetail.FormatTimeAgo: the item card and the item page hold identical
  copies of this function (`src/components/ItemCard.tsx:13-21`,
  `src/components/ItemPage.tsx:33-41`). Both are modelled by this one
  definition.
- Listing prices, ratings and `Math.random` view counts in the card are
  not modelled.

=== FILE: grid.dfy ===
/** The home page's grouped view: the `itemsByCategory` record built by a
    `reduce` (src/components/ItemGrid.tsx) and the per-category sections
    showing at most twelve items each (src/components/CategorySection.tsx). */
module Grid {
  import opened Sequences
  import opened Types
  import opened Routes
  import Listings

  // --------------------------------------------------------------- grouping

  /** The `reduce` over the items, left to right: each item is pushed onto
      the list of its category, which is created on first sight. */
  function GroupByCategory(items: seq<Item>): (groups: map<string, seq<Item>>)
    ensures forall k :: k in groups ==> |groups[k]| > 0
    ensures |items| > 0 ==> items[|items| - 1].category in groups
    decreases |items|
  {
    if |items| == 0 then map[]
    else
      var acc := GroupByCategory(items[..|items| - 1]);
      var x := items[|items| - 1];
      acc[x.category := (if x.category in acc then acc[x.category] else []) + [x]]
  }

  /** Some item has category `k`. */
  ghost predicate Mentions(items: seq<Item>, k: string) {
    exists x :: x in items && x.category == k
  }

  /** The record has a key for exactly the categories that occur. */
  lemma {:induction false} GroupKeys(items: seq<Item>)
    ensures forall k :: k in GroupByCategory(items) <==> Mentions(items, k)
    decreases |items|
  {
    if |items| > 0 {
      var front, x := items[..|items| - 1], items[|items| - 1];
      assert items == front + [x];
      GroupKeys(front);
      forall k ensures Mentions(items, k) <==> Mentions(front, k) || k == x.category {
        if Mentions(items, k) && k != x.category {
          var y :| y in items && y.category == k;
          assert y in front;
        }
        if Mentions(front, k) {
          var y :| y in front && y.category == k;
          assert y in items;
        }
      }
    }
  }

  /** The list under each key is the home filter for that category: the
      items of that category, in input order. */
  lemma {:induction false} GroupIsFilter(items: seq<Item>, k: string)
    requires k in GroupByCategory(items)
    ensures GroupByCategory(items)[k] == Filter(items, Listings.InCategory(k))
    decreases |items|
  {
    var front, x := items[..|items| - 1], items[|items| - 1];
    assert items == front + [x];
    var acc := GroupByCategory(front);
    FilterSnoc(front, x, Listings.InCategory(k));
    if k in acc {
      GroupIsFilter(front, k);
    } else {
      GroupKeys(front);
      FilterKeepsNone(front, Listings.InCategory(k));
    }
  }

  /** Every group is non-empty, holds only items of its own category, and
      keeps their input order. */
  lemma GroupsAreHomogeneous(items: seq<Item>, k: string)
    requires k in GroupByCategory(items)
    ensures var g := GroupByCategory(items)[k];
            |g| > 0 && (forall x :: x in g ==> x.category == k) && IsSubsequence(g, items)
  {
    GroupKeys(items);
    GroupIsFilter(items, k);
    var x :| x in items && x.category == k;
    assert x in GroupByCategory(items)[k];
    FilterIsSubsequence(items, Listings.InCategory(k));
  }

  /** Every item is in the group of its own category and in no other. */
  lemma EachItemInExactlyOneGroup(items: seq<Item>, x: Item)
    requires x in items
    ensures x.category in GroupByCategory(items)
    ensures forall k :: k in GroupByCategory(items) ==>
              (x in GroupByCategory(items)[k] <==> k == x.category)
  {
    GroupKeys(items);
    forall k | k in GroupByCategory(items)
      ensures x in GroupByCategory(items)[k] <==> k == x.category
    {
      GroupIsFilter(items, k);
    }
  }

  /** The groups, concatenated in the order `keys` lists them. */
  function Concat(keys: seq<string>, groups: map<string, seq<Item>>): seq<Item> {
    if |keys| == 0 then []
    else (if keys[0] in groups then groups[keys[0]] else []) + Concat(keys[1..], groups)
  }

  /** `item => keys.includes(item.category)` */
  function InSomeCategory(keys: seq<string>): Item -> bool {
    (x: Item) => x.category in keys
  }

  /** The category filters for `keys`, concatenated in that order. */
  function ConcatFilters(keys: seq<string>, items: seq<Item>): seq<Item> {
    if |keys| == 0 then []
    else Filter(items, Listings.InCategory(keys[0])) + ConcatFilters(keys[1..], items)
  }

  /** For duplicate-free keys, the category filters concatenate to the
      items whose category is listed, copies included. */
  lemma {:induction false} ConcatFiltersSplit(keys: seq<string>, items: seq<Item>)
    requires NoDuplicates(keys)
    ensures multiset(ConcatFilters(keys, items)) == multiset(Filter(items, InSomeCategory(keys)))
    decreases |keys|
  {
    if |keys| > 0 {
      var k, rest := keys[0], keys[1..];
      assert keys == [k] + rest;
      assert k !in rest;
      assert NoDuplicates(rest);
      ConcatFiltersSplit(rest, items);
      FilterSplit(items, Listings.InCategory(k), InSomeCategory(rest), InSomeCategory(keys));
    }
  }

  /** Over keys of the record, `Concat` of the groups is `ConcatFilters`. */
  lemma {:induction false} ConcatGroups(keys: seq<string>, items: seq<Item>)
    requires forall k :: k in keys ==> k in GroupByCategory(items)
    ensures Concat(keys, GroupByCategory(items)) == ConcatFilters(keys, items)
    decreases |keys|
  {
    if |keys| > 0 {
      GroupIsFilter(items, keys[0]);
      ConcatGroups(keys[1..], items);
    }
  }

  /** The groups partition the input: concatenating them over any
      duplicate-free listing of their keys gives back exactly the input's
      items, copies included, so the group sizes sum to the input length. */
  lemma GroupsPartition(items: seq<Item>, keys: seq<string>)
    requires NoDuplicates(keys)
    requires forall k :: k in keys <==> k in GroupByCategory(items)
    ensures multiset(Concat(keys, GroupByCategory(items))) == multiset(items)
    ensures |Concat(keys, GroupByCategory(items))| == |items|
  {
    GroupKeys(items);
    ConcatGroups(keys, items);
    ConcatFiltersSplit(keys, items);
    forall x | x in items ensures InSomeCategory(keys)(x) {
      assert Mentions(items, x.category);
    }
    FilterKeepsAll(items, InSomeCategory(keys));
    assert |multiset(Concat(keys, GroupByCategory(items)))| == |multiset(items)|;
  }

  // --------------------------------------------------------------- sections

  /** How many items a section shows. */
  const SectionCap: nat := 12

  /** A rendered category section: its header, the count badge and the
      items shown in the row. */
  datatype Section = Section(categoryId: string, name: string, icon: string, total: nat, shown: seq<Item>)

  /** `CategorySection`: nothing for an empty list; otherwise the badge
      counts every item and the row shows the first twelve, in order. */
  function CategorySection(categoryId: string, name: string, icon: string, items: seq<Item>): (r: Option<Section>)
    ensures r.None? <==> |items| == 0
    ensures r.Some? ==> r.value.categoryId == categoryId && r.value.name == name && r.value.icon == icon
    ensures r.Some? ==> r.value.total == |items|
    ensures r.Some? ==> r.value.shown <= items
    ensures r.Some? ==> |r.value.shown| == if |items| < SectionCap then |items| else SectionCap
  {
    if |items| == 0 then None
    else Some(Section(categoryId, name, icon, |items|, items[..if |items| < SectionCap then |items| else SectionCap]))
  }

  /** `handleViewAll`: always the category route; the `onViewAll` callback
      the section receives is never called. */
  function ViewAll(categoryId: string): (a: Action)
    ensures a.Navigate? && ParseRoute(a.path) == Some(CategoryRoute(categoryId))
  {
    RouteRoundTrip(CategoryRoute(categoryId));
    Navigate(RoutePath(CategoryRoute(categoryId)))
  }

  /** Whether the grid shows a section for `c`. */
  predicate HasSection(c: Category, groups: map<string, seq<Item>>) {
    c.id != AllCategories && c.id in groups && |groups[c.id]| > 0
  }

  /** A section carries the id, name and icon of category `c`. */
  predicate ShowsCategory(s: Section, c: Category) {
    s.categoryId == c.id && s.name == c.name && s.icon == c.icon
  }

  /** One section per category that passes `HasSection`, in list order. */
  function SectionsFor(categories: seq<Category>, groups: map<string, seq<Item>>): (sections: seq<Section>)
    ensures |sections| <= |categories|
    ensures forall s :: s in sections ==>
              && s.categoryId != AllCategories
              && s.categoryId in groups
              && s.categoryId in CategoryIds(categories)
              && Some(s) == CategorySection(s.categoryId, s.name, s.icon, groups[s.categoryId])
    ensures forall c :: c in categories && HasSection(c, groups) ==>
              exists s :: s in sections && s.categoryId == c.id
  {
    if |categories| == 0 then []
    else
      var c := categories[0];
      var rest := SectionsFor(categories[1..], groups);
      assert forall s :: s in rest ==> s.categoryId in CategoryIds(categories) by {
        assert CategoryIds(categories) == [c.id] + CategoryIds(categories[1..]);
      }
      if HasSection(c, groups) then
        [CategorySection(c.id, c.name, c.icon, groups[c.id]).value] + rest
      else rest
  }

  /** Every section shows the name and icon of a listed category with its
      id. */
  lemma {:induction false} SectionsNameTheirCategory(categories: seq<Category>, groups: map<string, seq<Item>>)
    ensures forall s :: s in SectionsFor(categories, groups) ==>
              exists c :: c in categories && ShowsCategory(s, c)
    decreases |categories|
  {
    if |categories| > 0 {
      var c := categories[0];
      SectionsNameTheirCategory(categories[1..], groups);
      var sections := SectionsFor(categories, groups);
      var rest := SectionsFor(categories[1..], groups);
      forall s | s in sections ensures exists c' :: c' in categories && ShowsCategory(s, c') {
        if s in rest {
          var c' :| c' in categories[1..] && ShowsCategory(s, c');
          assert c' in categories;
        } else {
          assert ShowsCategory(s, c);
        }
      }
    }
  }

  /** Section ids, in order. */
  function SectionIds(sections: seq<Section>): seq<string> {
    Map(sections, (s: Section) => s.categoryId)
  }

  /** Sections follow the order of the categories list, so with unique
      category ids no category gets two sections. */
  lemma {:induction false} SectionsFollowCategories(categories: seq<Category>, groups: map<string, seq<Item>>)
    ensures IsSubsequence(SectionIds(SectionsFor(categories, groups)), CategoryIds(categories))
    ensures NoDuplicates(CategoryIds(categories)) ==> NoDuplicates(SectionIds(SectionsFor(categories, groups)))
    decreases |categories|
  {
    var ids := SectionIds(SectionsFor(categories, groups));
    if |categories| > 0 {
      var c := categories[0];
      var rest := SectionsFor(categories[1..], groups);
      SectionsFollowCategories(categories[1..], groups);
      assert CategoryIds(categories)[1..] == CategoryIds(categories[1..]);
      if HasSection(c, groups) {
        assert ids[0] == c.id && ids[1..] == SectionIds(rest);
      } else {
        assert ids == SectionIds(rest);
      }
    }
    if NoDuplicates(CategoryIds(categories)) {
      SubsequenceNoDuplicates(ids, CategoryIds(categories));
    }
  }

  /** What the grid renders. */
  datatype GridView = NoItems | Sections(sections: seq<Section>)

  /** `ItemGrid`: the empty state for no items, otherwise one section per
      listed category (other than "all") that has items. */
  function ItemGrid(categories: seq<Category>, items: seq<Item>): (g: GridView)
    ensures g.NoItems? <==> |items| == 0
  {
    if |items| == 0 then NoItems
    else Sections(SectionsFor(categories, GroupByCategory(items)))
  }

  /** Every section of the grid is a real category (never "all") with at
      least one item; its badge counts all the items of that category and
      its row shows the first twelve of them in input order. */
  lemma GridSections(categories: seq<Category>, items: seq<Item>, s: Section)
    requires ItemGrid(categories, items).Sections?
    requires s in ItemGrid(categories, items).sections
    ensures s.categoryId != AllCategories && s.categoryId in CategoryIds(categories)
    ensures s.total == |Filter(items, Listings.InCategory(s.categoryId))| > 0
    ensures s.shown <= Filter(items, Listings.InCategory(s.categoryId))
    ensures |s.shown| <= SectionCap
  {
    var groups := GroupByCategory(items);
    assert s in SectionsFor(categories, groups);
    GroupIsFilter(items, s.categoryId);
  }

  /** Every listed category other than "all" that has an item gets a section. */
  lemma GridSectionsComplete(categories: seq<Category>, items: seq<Item>, c: Category)
    requires c in categories && c.id != AllCategories
    requires exists x :: x in items && x.category == c.id
    ensures ItemGrid(categories, items).Sections?
    ensures exists s :: s in ItemGrid(categories, items).sections && s.categoryId == c.id
  {
    var x :| x in items && x.category == c.id;
    var groups := GroupByCategory(items);
    GroupKeys(items);
    assert Mentions(items, c.id);
    GroupIsFilter(items, c.id);
    assert x in groups[c.id];
    assert HasSection(c, groups);
  }

  /** An item whose category is not listed appears in no section. */
  lemma UnlistedCategoryHidden(categories: seq<Category>, items: seq<Item>, x: Item)
    requires x.category !in CategoryIds(categories)
    requires ItemGrid(categories, items).Sections?
    ensures forall s :: s in ItemGrid(categories, items).sections ==> x !in s.shown
  {
    forall s | s in ItemGrid(categories, items).sections
      ensures x !in s.shown
    {
      GridSections(categories, items, s);
      var g := Filter(items, Listings.InCategory(s.categoryId));
      assert forall y :: y in s.shown ==> y in g;
    }
  }
}

=== FILE: item_detail.dfy ===
/** The item page (src/components/ItemPage.tsx): the lookup of the routed
    id, the "time ago" caption (the item card, src/components/ItemCard.tsx,
    holds an identical copy whose only use is commented out), the condition
    badge's colour and the
    page's title and description for search engines. The clock reading and
    the price formatter are inputs. */
module ItemDetail {
  import opened Sequences
  import opened Text
  import opened Types
  import opened Routes
  import Navigation

  // ------------------------------------------------------------ time labels

  /** Milliseconds in an hour and in a day. */
  const HourMs: int := 1000 * 60 * 60
  const DayMs: int := 24 * HourMs

  /** How old a listing looks: under an hour, whole hours under a day, or
      whole days. */
  datatype Age = JustNow | HoursAgo(hours: nat) | DaysAgo(days: nat)

  /** The age of a listing posted at `postedAt` seen at `now`, both in
      milliseconds. Hours are `Math.floor` of the difference over an hour,
      which Dafny's division matches for a positive divisor; days are the
      hours floored over 24. A listing from the future is "just now". */
  function AgeOf(now: int, postedAt: int): (a: Age)
    ensures a.JustNow? <==> now - postedAt < HourMs
    ensures a.HoursAgo? ==>
              && 1 <= a.hours < 24
              && a.hours * HourMs <= now - postedAt < (a.hours + 1) * HourMs
    ensures a.DaysAgo? ==>
              && 1 <= a.days
              && a.days * DayMs <= now - postedAt < (a.days + 1) * DayMs
              && a.days == (now - postedAt) / DayMs
  {
    var diff := now - postedAt;
    var hours := diff / HourMs;
    if hours < 1 then JustNow
    else if hours < 24 then HoursAgo(hours)
    else
      WholeDays(diff, hours);
      DaysAgo(hours / 24)
  }

  /** Flooring the whole hours over 24 gives the whole days. */
  lemma WholeDays(diff: int, hours: int)
    requires hours >= 24 && hours == diff / HourMs
    ensures (hours / 24) * DayMs <= diff < (hours / 24 + 1) * DayMs
    ensures hours / 24 == diff / DayMs
  {
    var d := hours / 24;
    assert hours * HourMs <= diff < (hours + 1) * HourMs;
    assert d * 24 <= hours && hours + 1 <= (d + 1) * 24;
    assert d * DayMs == (d * 24) * HourMs;
    assert (d + 1) * DayMs == ((d + 1) * 24) * HourMs;
    MulMonotone(d * 24, hours, HourMs);
    MulMonotone(hours + 1, (d + 1) * 24, HourMs);
    FloorUnique(diff, DayMs, d);
  }

  /** The quotient is the only whole number of divisors below the value. */
  lemma FloorUnique(x: int, k: int, d: int)
    requires k > 0 && d * k <= x < (d + 1) * k
    ensures x / k == d
  {
    var q := x / k;
    assert q * k <= x < (q + 1) * k;
    if q < d {
      MulMonotone(q + 1, d, k);
    } else if q > d {
      MulMonotone(d + 1, q, k);
    }
  }

  lemma MulMonotone(a: int, b: int, k: nat)
    requires a <= b
    ensures a * k <= b * k
  {
  }

  function AgeLabel(a: Age): string {
    match a
    case JustNow => "Just now"
    case HoursAgo(h) => NatToString(h) + "h ago"
    case DaysAgo(d) => NatToString(d) + "d ago"
  }

  /** Reads a caption back into the age it shows; the number must be
      written as `${n}` writes it, without leading zeros. */
  function ReadAge(caption: string): Option<Age> {
    if caption == "Just now" then Some(JustNow)
    else if |caption| > 5 && IsCanonicalDecimal(caption[..|caption| - 5]) then
      var n := ParseDecimal(caption[..|caption| - 5]);
      var unit := caption[|caption| - 5..];
      if unit == "h ago" then Some(HoursAgo(n))
      else if unit == "d ago" then Some(DaysAgo(n))
      else None
    else None
  }

  /** A caption loses nothing: reading it back gives the age it renders. */
  lemma AgeLabelRoundTrip(a: Age)
    ensures ReadAge(AgeLabel(a)) == Some(a)
  {
    match a
    case JustNow =>
    case HoursAgo(h) =>
      var caption := AgeLabel(a);
      assert caption[0] == NatToString(h)[0];
      assert caption[..|caption| - 5] == NatToString(h);
      assert caption[|caption| - 5..] == "h ago";
      NatToStringRoundTrip(h);
    case DaysAgo(d) =>
      var caption := AgeLabel(a);
      assert caption[0] == NatToString(d)[0];
      assert caption[..|caption| - 5] == NatToString(d);
      assert caption[|caption| - 5..] == "d ago";
      NatToStringRoundTrip(d);
  }

  /** Only the rendered caption reads back to an age: a caption that
      `ReadAge` accepts is the one `AgeLabel` writes for what it reads. */
  lemma ReadAgeOnlyRendered(caption: string)
    requires ReadAge(caption).Some?
    ensures caption == AgeLabel(ReadAge(caption).value)
  {
    if caption != "Just now" {
      var digits := caption[..|caption| - 5];
      CanonicalDecimalRoundTrip(digits);
      assert caption == digits + caption[|caption| - 5..];
    }
  }

  /** `formatTimeAgo`, written identically in the item card and on the item
      page: "Just now" exactly under an hour, and otherwise a caption from
      which the whole hours (under a day) or whole days can be read back. */
  function FormatTimeAgo(now: int, postedAt: int): (caption: string)
    ensures caption == "Just now" <==> now - postedAt < HourMs
    ensures ReadAge(caption) == Some(AgeOf(now, postedAt))
  {
    AgeLabelRoundTrip(AgeOf(now, postedAt));
    AgeLabel(AgeOf(now, postedAt))
  }

  /** An older listing never shows a younger age. */
  lemma OlderLooksOlder(now: int, p1: int, p2: int)
    requires p1 <= p2
    ensures AgeOf(now, p2).JustNow? || !AgeOf(now, p1).JustNow?
    ensures AgeOf(now, p2).DaysAgo? ==> AgeOf(now, p1).DaysAgo? && AgeOf(now, p2).days <= AgeOf(now, p1).days
    ensures AgeOf(now, p1).HoursAgo? && AgeOf(now, p2).HoursAgo? ==> AgeOf(now, p2).hours <= AgeOf(now, p1).hours
  {
    var d1, d2 := now - p1, now - p2;
    assert d2 / HourMs <= d1 / HourMs by {
      DivMonotone(d2, d1, HourMs);
    }
    DivMonotone(d2 / HourMs, d1 / HourMs, 24);
  }

  lemma DivMonotone(a: int, b: int, k: int)
    requires a <= b && k > 0
    ensures a / k <= b / k
  {
    assert (a / k) * k <= a;
    assert b < (b / k + 1) * k;
    MulCancel(a / k, b / k + 1, k);
  }

  lemma MulCancel(x: int, y: int, k: int)
    requires k > 0 && x * k < y * k
    ensures x < y
  {
  }

  // ---------------------------------------------------------- condition badge

  const GrayBadge: string := "bg-gray-100 text-gray-800"

  /** `getConditionColor`: one colour per condition value, gray for any
      other string. */
  function ConditionColor(condition: string): (cls: string)
    ensures cls == GrayBadge <==> forall c: Condition :: ConditionValue(c) != condition
  {
    if condition == "new" then (assert ConditionValue(New) == condition; "bg-green-100 text-green-800")
    else if condition == "like-new" then (assert ConditionValue(LikeNew) == condition; "bg-blue-100 text-blue-800")
    else if condition == "good" then (assert ConditionValue(Good) == condition; "bg-yellow-100 text-yellow-800")
    else if condition == "fair" then (assert ConditionValue(Fair) == condition; "bg-orange-100 text-orange-800")
    else GrayBadge
  }

  /** Different conditions get different badge colours. */
  lemma ConditionColorsDistinct(c1: Condition, c2: Condition)
    ensures ConditionColor(ConditionValue(c1)) == ConditionColor(ConditionValue(c2)) <==> c1 == c2
  {
    var s1, s2 := ConditionColor(ConditionValue(c1)), ConditionColor(ConditionValue(c2));
    if c1 != c2 {
      assert s1[3] != s2[3];
    }
  }

  // -------------------------------------------------------------- page head

  /** The length the description is cut to. */
  const MetaLength: nat := 160

  /** `${description.substring(0, 160)}...` */
  function MetaDescription(description: string): (meta: string)
    ensures EndsWith(meta, "...")
    ensures |meta| == (if |description| < MetaLength then |description| else MetaLength) + 3
    ensures meta[..|meta| - 3] <= description
    ensures |description| <= MetaLength ==> meta == description + "..."
  {
    var cut := description[..if |description| < MetaLength then |description| else MetaLength];
    assert (cut + "...")[..|cut|] == cut;
    cut + "..."
  }

  /** `${title} - $${price} | CityMarket`, with `formatPrice` standing for
      `toLocaleString`: the item title, then " - $" and the formatted price,
      then the site name. */
  function PageTitle(item: Item, formatPrice: real -> string): (title: string)
    ensures item.title <= title
    ensures |title| == |item.title| + |formatPrice(item.price)| + 17
    ensures title[|item.title|..|item.title| + 4] == " - $"
    ensures title[|item.title| + 4..|title| - 13] == formatPrice(item.price)
    ensures EndsWith(title, " | CityMarket")
  {
    var price := formatPrice(item.price);
    var t := item.title + " - $" + price + " | CityMarket";
    assert t[..|item.title|] == item.title;
    assert t[|item.title|..|item.title| + 4] == " - $";
    assert t[|item.title| + 4..|t| - 13] == price;
    t
  }

  /** Two items with the same title get the same page title exactly when
      their prices format the same: the price is never lost. */
  lemma PageTitleShowsPrice(a: Item, b: Item, formatPrice: real -> string)
    requires a.title == b.title
    ensures PageTitle(a, formatPrice) == PageTitle(b, formatPrice) <==>
            formatPrice(a.price) == formatPrice(b.price)
  {
    var ta, tb := PageTitle(a, formatPrice), PageTitle(b, formatPrice);
    if ta == tb {
      assert ta[|a.title| + 4..|ta| - 13] == tb[|b.title| + 4..|tb| - 13];
    }
  }

  // -------------------------------------------------------------- item page

  datatype ItemView =
    | ItemNotFound
    | ItemDetail(item: Item, age: string, badge: string, meta: string)

  /** `item => item.id === key` */
  function HasId(key: string): Item -> bool {
    (x: Item) => x.id == key
  }

  /** `items.find(item => item.id === id)`: the first item with the routed
      id; an absent id matches nothing. */
  function FindItem(items: seq<Item>, id: Option<string>): (r: Option<Item>)
    ensures r.None? <==> id.None? || forall x :: x in items ==> x.id != id.value
    ensures r.Some? ==>
              && r.value.id == id.value
              && exists i :: 0 <= i < |items| && items[i] == r.value &&
                               forall j :: 0 <= j < i ==> items[j].id != id.value
  {
    match id
    case None => None
    case Some(key) => Find(items, HasId(key))
  }

  /** With unique ids, no other item shares an item's id. */
  lemma UniqueIds(items: seq<Item>, i: nat)
    requires i < |items| && UniqueItemIds(items)
    ensures forall j :: 0 <= j < |items| && j != i ==> items[j].id != items[i].id
  {
    forall j | 0 <= j < |items| && j != i ensures items[j].id != items[i].id {
      if j < i {
        assert items[j].id != items[i].id;
      }
    }
  }

  /** When ids are unique, an item's own id finds that item. */
  lemma UniqueIdFindsItsItem(items: seq<Item>, i: nat)
    requires i < |items| && UniqueItemIds(items)
    ensures FindItem(items, Some(items[i].id)) == Some(items[i])
  {
    UniqueIds(items, i);
    FindOnly(items, HasId(items[i].id), i);
  }

  /** The item page: "not found" when the lookup fails, otherwise the item
      with its age caption, condition badge and meta description. */
  function ItemPage(items: seq<Item>, id: Option<string>, now: int): (v: ItemView)
    ensures v.ItemNotFound? <==> FindItem(items, id).None?
    ensures v.ItemDetail? ==>
              && v.item == FindItem(items, id).value
              && v.age == FormatTimeAgo(now, v.item.postedAt)
              && v.badge == ConditionColor(ConditionValue(v.item.condition))
              && v.meta == MetaDescription(v.item.description)
  {
    match FindItem(items, id)
    case None => ItemNotFound
    case Some(x) =>
      ItemDetail(x, FormatTimeAgo(now, x.postedAt),
                 ConditionColor(ConditionValue(x.condition)),
                 MetaDescription(x.description))
  }

  /** The page a card opens shows that card's item, when ids are unique. */
  lemma CardOpensItsItem(items: seq<Item>, i: nat, now: int)
    requires i < |items| && UniqueItemIds(items)
    ensures var route := ParseRoute(Navigation.CardClick(items[i]).path);
            && route.Some? && route.value.ItemRoute?
            && ItemPage(items, Some(route.value.id), now).ItemDetail?
            && ItemPage(items, Some(route.value.id), now).item == items[i]
  {
    var route := ParseRoute(Navigation.CardClick(items[i]).path);
    assert route == Some(ItemRoute(items[i].id));
    UniqueIdFindsItsItem(items, i);
    var v := ItemPage(items, Some(items[i].id), now);
    assert v.ItemDetail? && v.item == items[i];
  }
}

=== FILE: listing_form.dfy ===
/** The "list an item" form (src/components/ListItemPage.tsx): picture
    upload and removal, the publish button's enabling rule, the record the
    form submits and the reset that follows a successful submit. File
    reading, the clock and `parseFloat` are inputs. */
module ListingForm {
  import opened Sequences
  import opened Text
  import opened Types
  import opened Routes

  /** The form's fields. `price` is the raw text of the price box. */
  datatype Draft = Draft(
    title: string,
    price: string,
    description: string,
    category: string,
    condition: Condition,
    images: seq<string>)

  /** The empty form, with "good" preselected. */
  const InitialDraft: Draft := Draft("", "", "", "", Good, [])

  // ------------------------------------------------------------------ photos

  /** The most pictures the page invites. */
  const MaxImages: nat := 10

  /** A selected file: its MIME type and the data URL its reader yields. */
  datatype UploadFile = UploadFile(mimeType: string, dataUrl: string)

  predicate IsImageFile(f: UploadFile) {
    "image/" <= f.mimeType
  }

  function DataUrl(f: UploadFile): string {
    f.dataUrl
  }

  /** The data URLs of the image files of a batch, in selection order; the
      first of them, the cover picture on an empty form, is the first image
      file's. */
  function ImageUrls(files: seq<UploadFile>): (urls: seq<string>)
    ensures |urls| <= |files|
    ensures forall u :: u in urls <==> exists f :: f in files && IsImageFile(f) && f.dataUrl == u
    ensures Find(files, IsImageFile).None? ==> urls == []
    ensures Find(files, IsImageFile).Some? ==> |urls| > 0 && urls[0] == Find(files, IsImageFile).value.dataUrl
  {
    var images := Filter(files, IsImageFile);
    assert forall f :: f in images ==> DataUrl(f) in Map(images, DataUrl) by {
      forall f | f in images ensures DataUrl(f) in Map(images, DataUrl) {
        var i :| 0 <= i < |images| && images[i] == f;
        assert Map(images, DataUrl)[i] == DataUrl(f);
      }
    }
    match FindIndex(files, IsImageFile)
    case Some(i) => FilterHead(files, IsImageFile, i); Map(images, DataUrl)
    case None => Map(images, DataUrl)
  }

  /** The URLs of two batches in a row are the first batch's followed by
      the second's: selection order decides which picture comes first. */
  lemma ImageUrlsAppend(a: seq<UploadFile>, b: seq<UploadFile>)
    ensures ImageUrls(a + b) == ImageUrls(a) + ImageUrls(b)
  {
    FilterAppend(a, b, IsImageFile);
    MapAppend(Filter(a, IsImageFile), Filter(b, IsImageFile), DataUrl);
  }

  /** A single file contributes its data URL exactly when it is an image. */
  lemma ImageUrlsOne(f: UploadFile)
    ensures ImageUrls([f]) == if IsImageFile(f) then [f.dataUrl] else []
  {
    assert [f][1..] == [];
  }

  /** `handleImageUpload` as written: every image file of the batch is read
      and appended whenever the list held fewer than ten pictures when the
      batch was chosen; the length is not re-read per file. */
  function UploadAsWritten(images: seq<string>, files: seq<UploadFile>): (r: seq<string>)
    ensures |images| < MaxImages ==> r == images + ImageUrls(files)
    ensures |images| >= MaxImages ==> r == images
  {
    if |images| < MaxImages then images + ImageUrls(files) else images
  }

  /** Nine pictures and a batch of two image files give eleven pictures,
      over the page's stated limit of ten. */
  lemma UploadAsWrittenExceedsCap(images: seq<string>, a: string, b: string)
    requires |images| == 9
    ensures |UploadAsWritten(images, [UploadFile("image/png", a), UploadFile("image/jpeg", b)])| == 11
  {
    var files := [UploadFile("image/png", a), UploadFile("image/jpeg", b)];
    assert IsImageFile(files[0]) && IsImageFile(files[1]);
    FilterKeepsAll(files, IsImageFile);
  }

  /** Upload with the limit applied per file: the image files of the batch
      are appended in order until the list holds ten pictures. */
  function Upload(images: seq<string>, files: seq<UploadFile>): (r: seq<string>)
    ensures images <= r
    ensures r[|images|..] <= ImageUrls(files)
    ensures |images| >= MaxImages ==> r == images
    ensures |images| < MaxImages ==>
              |r| == if |images| + |ImageUrls(files)| <= MaxImages then |images| + |ImageUrls(files)| else MaxImages
  {
    var urls := ImageUrls(files);
    var room := if |images| < MaxImages then MaxImages - |images| else 0;
    var added := urls[..if |urls| < room then |urls| else room];
    assert (images + added)[|images|..] == added;
    images + added
  }

  /** The corrected upload never takes a list past ten pictures. */
  lemma UploadKeepsCap(images: seq<string>, files: seq<UploadFile>)
    requires |images| <= MaxImages
    ensures |Upload(images, files)| <= MaxImages
  {
  }

  /** Whenever the batch fits, the corrected upload does what the handler
      does. */
  lemma UploadAgreesWhenRoom(images: seq<string>, files: seq<UploadFile>)
    requires |images| + |ImageUrls(files)| <= MaxImages
    ensures Upload(images, files) == UploadAsWritten(images, files)
  {
    var r := Upload(images, files);
    assert r == r[..|images|] + r[|images|..];
  }

  /** `removeImage`: keeps every picture whose position differs from
      `index`, as `filter((_, i) => i !== index)` does. */
  function RemoveImage(images: seq<string>, index: int): (r: seq<string>)
    ensures 0 <= index < |images| ==> r == images[..index] + images[index + 1..]
    ensures !(0 <= index < |images|) ==> r == images
    decreases |images|
  {
    if |images| == 0 then []
    else
      var rest := RemoveImage(images[1..], index - 1);
      assert 0 < index < |images| ==> images[1..][..index - 1] == images[1..index];
      assert 0 < index < |images| ==> images[1..][index..] == images[index + 1..];
      (if index == 0 then [] else [images[0]]) + rest
  }

  /** Removing a picture loses exactly that picture and nothing else. */
  lemma RemoveImageLosesOne(images: seq<string>, index: int)
    requires 0 <= index < |images|
    ensures multiset(RemoveImage(images, index)) + multiset{images[index]} == multiset(images)
    ensures |RemoveImage(images, index)| == |images| - 1
  {
    var r := RemoveImage(images, index);
    assert r == images[..index] + images[index + 1..];
    SpliceMultiset(images, index);
  }

  // ------------------------------------------------------------- publishing

  /** The publish button is disabled while a submit is pending or while any
      of title, price, category or description is empty. The text is not
      trimmed and no picture is required. */
  predicate PublishDisabled(d: Draft, loading: bool)
    ensures loading ==> PublishDisabled(d, loading)
    ensures d == InitialDraft ==> PublishDisabled(d, loading)
    ensures !loading && d.title != "" && d.price != "" && d.category != "" && d.description != "" ==>
              !PublishDisabled(d, loading)
  {
    loading || d.title == "" || d.price == "" || d.category == "" || d.description == ""
  }

  /** The signed-in user's profile fields the form reads, when present. */
  datatype User = User(fullName: Option<string>, avatarUrl: Option<string>, phone: Option<string>)

  /** JavaScript's `a || b` on an optional string: `a` when it is a
      non-empty string, `b` otherwise. */
  function OrElse(a: Option<string>, b: string): (r: string)
    ensures a.Some? && a.value != "" ==> r == a.value
    ensures a.None? || a.value == "" ==> r == b
  {
    if a.Some? && a.value != "" then a.value else b
  }

  const DemoSellerName: string := "Demo User"
  const DefaultAvatar: string :=
    "https://images.pexels.com/photos/220453/pexels-photo-220453.jpeg?auto=compress&cs=tinysrgb&w=100"
  const PublishedRating: real := 4.8
  const PublishedLocation: string := "Your Area"

  /** The seller name: the full name, else the phone, else "Demo User". */
  function SellerName(user: Option<User>): (name: string)
    ensures name != ""
    ensures user.Some? && user.value.fullName.Some? && user.value.fullName.value != "" ==>
              name == user.value.fullName.value
    ensures user.Some? && (user.value.fullName.None? || user.value.fullName.value == "") &&
            user.value.phone.Some? && user.value.phone.value != "" ==>
              name == user.value.phone.value
    ensures user.None? ||
            ((user.value.fullName.None? || user.value.fullName.value == "") &&
             (user.value.phone.None? || user.value.phone.value == "")) ==>
              name == DemoSellerName
  {
    match user
    case None => DemoSellerName
    case Some(u) => OrElse(u.fullName, OrElse(u.phone, DemoSellerName))
  }

  /** The seller picture: the profile's avatar, else the stock one. */
  function SellerAvatar(user: Option<User>): (avatar: string)
    ensures avatar != ""
    ensures user.Some? && user.value.avatarUrl.Some? && user.value.avatarUrl.value != "" ==>
              avatar == user.value.avatarUrl.value
    ensures user.None? || user.value.avatarUrl.None? || user.value.avatarUrl.value == "" ==>
              avatar == DefaultAvatar
  {
    match user
    case None => DefaultAvatar
    case Some(u) => OrElse(u.avatarUrl, DefaultAvatar)
  }

  /** The record handed to the submit callback: the form's fields, the
      price read by `parsePrice`, the clock reading `now` as both id and
      posting time, the user as seller, and the first picture (or the
      default one) as the image. */
  function Payload(d: Draft, user: Option<User>, now: nat, parsePrice: string -> real): (x: Item)
    ensures x.title == d.title && x.description == d.description
    ensures x.category == d.category && x.condition == d.condition
    ensures x.price == parsePrice(d.price)
    ensures x.id == NatToString(now) && ParseDecimal(x.id) == now && x.postedAt == now
    ensures x.seller.rating == PublishedRating && x.location == PublishedLocation
    ensures x.seller == Seller(SellerName(user), SellerAvatar(user), PublishedRating)
    ensures |d.images| > 0 && d.images[0] != "" ==> x.image == d.images[0]
    ensures |d.images| == 0 || d.images[0] == "" ==> x.image == DefaultItemImage
    ensures x.image != ""
  {
    NatToStringRoundTrip(now);
    Item(
      id := NatToString(now),
      title := d.title,
      price := parsePrice(d.price),
      description := d.description,
      category := d.category,
      image := OrElse(if |d.images| > 0 then Some(d.images[0]) else None, DefaultItemImage),
      seller := Seller(SellerName(user), SellerAvatar(user), PublishedRating),
      location := PublishedLocation,
      postedAt := now,
      condition := d.condition)
  }

  /** Listings published at different times get different ids. */
  lemma PayloadIdsDiffer(d1: Draft, d2: Draft, user: Option<User>, t1: nat, t2: nat, parsePrice: string -> real)
    requires t1 != t2
    ensures Payload(d1, user, t1, parsePrice).id != Payload(d2, user, t2, parsePrice).id
  {
    if NatToString(t1) == NatToString(t2) {
      NatToStringInjective(t1, t2);
    }
  }

  /** `handleSubmit`: when the callback returns, the form is reset and the
      page navigates home; when it throws, the form is kept and the page
      stays. `threw` is the callback's outcome. */
  function SubmitListing(d: Draft, threw: bool): (r: (Draft, Action))
    ensures !threw <==> r.1.Navigate?
    ensures r.1.Navigate? ==> r.0 == InitialDraft && ParseRoute(r.1.path) == Some(Home)
    ensures r.1.NoOp? ==> r.0 == d
  {
    if threw then (d, NoOp) else (InitialDraft, Navigate(RoutePath(Home)))
  }

  /** The category choices: every category except the "all" sentinel, in
      list order. */
  function CategoryOptions(categories: seq<Category>): (options: seq<Category>)
    ensures forall c :: c in options <==> c in categories && c.id != AllCategories
    ensures AllCategories !in CategoryIds(options)
    ensures forall c: Category :: c.id != AllCategories ==> multiset(options)[c] == multiset(categories)[c]
  {
    assert forall c: Category :: c.id != AllCategories ==>
             multiset(Filter(categories, NotAll))[c] == multiset(categories)[c] by {
      forall c: Category | c.id != AllCategories
        ensures multiset(Filter(categories, NotAll))[c] == multiset(categories)[c]
      {
        FilterKeepsEveryCopy(categories, NotAll, c);
      }
    }
    Filter(categories, NotAll)
  }

  /** `c => c.id !== 'all'` */
  function NotAll(c: Category): bool {
    c.id != AllCategories
  }

  /** The options keep list order. */
  lemma CategoryOptionsKeepOrder(categories: seq<Category>)
    ensures IsSubsequence(CategoryOptions(categories), categories)
  {
    FilterIsSubsequence(categories, NotAll);
  }

  // ----------------------------------------------------------- state machine

  datatype ListingEvent =
    | TypeTitle(text: string)
    | TypePrice(text: string)
    | TypeDescription(text: string)
    | ChooseCategory(id: string)
    | ChooseCondition(condition: Condition)
    | AddFiles(files: seq<UploadFile>)
    | RemovePicture(index: int)
    | Publish(threw: bool)

  /** One interaction, with the corrected upload; a publish press does
      nothing while the button is disabled. */
  function Apply(d: Draft, e: ListingEvent): (r: Draft)
    ensures r.title != d.title ==> e.TypeTitle? || e.Publish?
    ensures r.price != d.price ==> e.TypePrice? || e.Publish?
    ensures r.description != d.description ==> e.TypeDescription? || e.Publish?
    ensures r.category != d.category ==> e.ChooseCategory? || e.Publish?
    ensures r.condition != d.condition ==> e.ChooseCondition? || e.Publish?
    ensures r.images != d.images ==> e.AddFiles? || e.RemovePicture? || e.Publish?
    ensures e.Publish? ==> r == d || r == InitialDraft
    ensures e.Publish? && PublishDisabled(d, false) ==> r == d
  {
    match e
    case TypeTitle(t) => d.(title := t)
    case TypePrice(t) => d.(price := t)
    case TypeDescription(t) => d.(description := t)
    case ChooseCategory(id) => d.(category := id)
    case ChooseCondition(c) => d.(condition := c)
    case AddFiles(files) => d.(images := Upload(d.images, files))
    case RemovePicture(i) => d.(images := RemoveImage(d.images, i))
    case Publish(threw) => if PublishDisabled(d, false) then d else SubmitListing(d, threw).0
  }

  function Run(d: Draft, events: seq<ListingEvent>): Draft
    decreases |events|
  {
    if |events| == 0 then d else Run(Apply(d, events[0]), events[1..])
  }

  /** One interaction as the page is written: a batch of files goes through
      `UploadAsWritten`; everything else is as in `Apply`. */
  function ApplyAsWritten(d: Draft, e: ListingEvent): (r: Draft)
    ensures !e.AddFiles? ==> r == Apply(d, e)
    ensures e.AddFiles? ==> r == d.(images := r.images) && d.images <= r.images
    ensures e.AddFiles? && |d.images| < MaxImages ==> |r.images| == |d.images| + |ImageUrls(e.files)|
  {
    match e
    case AddFiles(files) => d.(images := UploadAsWritten(d.images, files))
    case _ => Apply(d, e)
  }

  /** The two machines differ only on a batch that does not fit. */
  lemma ApplyAgreesWhenRoom(d: Draft, e: ListingEvent)
    requires e.AddFiles? ==> |d.images| + |ImageUrls(e.files)| <= MaxImages
    ensures ApplyAsWritten(d, e) == Apply(d, e)
  {
    if e.AddFiles? {
      UploadAgreesWhenRoom(d.images, e.files);
    }
  }

  /** On the page as written, a form with nine pictures reaches eleven in
      one interaction. */
  lemma ApplyAsWrittenExceedsCap(d: Draft, a: string, b: string)
    requires |d.images| == 9
    ensures |ApplyAsWritten(d, AddFiles([UploadFile("image/png", a), UploadFile("image/jpeg", b)])).images| == 11
  {
    UploadAsWrittenExceedsCap(d.images, a, b);
  }

  /** With the corrected upload, no interaction takes the form past ten
      pictures. */
  lemma ApplyKeepsCap(d: Draft, e: ListingEvent)
    requires |d.images| <= MaxImages
    ensures |Apply(d, e).images| <= MaxImages
  {
    if e.AddFiles? {
      UploadKeepsCap(d.images, e.files);
    }
  }

  /** With the corrected upload, every form reachable from one within the
      limit stays within it. */
  lemma {:induction false} RunKeepsCap(d: Draft, events: seq<ListingEvent>)
    requires |d.images| <= MaxImages
    ensures |Run(d, events).images| <= MaxImages
    decreases |events|
  {
    if |events| > 0 {
      ApplyKeepsCap(d, events[0]);
      RunKeepsCap(Apply(d, events[0]), events[1..]);
    }
  }

  /** A publish press gives the empty form exactly when the form was empty
      already, or the button was enabled and the callback returned. */
  lemma PublishResetsIff(d: Draft, threw: bool)
    ensures Apply(d, Publish(threw)) == InitialDraft <==>
            d == InitialDraft || (!PublishDisabled(d, false) && !threw)
  {
  }

  /** A complete form with nothing pending can be published, and a
      returning callback then resets it. */
  lemma CompleteFormPublishes(d: Draft, threw: bool)
    requires d.title != "" && d.price != "" && d.category != "" && d.description != ""
    ensures !PublishDisabled(d, false)
    ensures !threw ==> Apply(d, Publish(threw)) == InitialDraft
    ensures threw ==> Apply(d, Publish(threw)) == d
  {
  }

  /** A publish press resets the form only when all four required fields
      were filled in and the callback returned. */
  lemma PublishResetsOnlyWhenComplete(d: Draft, threw: bool)
    requires d != InitialDraft && Apply(d, Publish(threw)) == InitialDraft
    ensures !threw
    ensures d.title != "" && d.price != "" && d.category != "" && d.description != ""
  {
  }
}

=== FILE: listings.dfy ===
/** The listing queries of the application: the home page's category filter
    and add handler (src/App.tsx), the category page's filter and lookup
    (src/components/CategoryPage.tsx) and the search page's five-field
    search (src/components/SearchPage.tsx). */
module Listings {
  import opened Sequences
  import opened Text
  import opened Types

  /** `item => item.category === id` */
  function InCategory(id: string): Item -> bool {
    (x: Item) => x.category == id
  }

  // ---------------------------------------------------------------- home page

  /** `filteredItems`: every item under the "all" sentinel, otherwise the
      items of the selected category. */
  function FilterByCategory(items: seq<Item>, selected: string): (view: seq<Item>)
    ensures selected == AllCategories ==> view == items
    ensures selected != AllCategories ==>
              forall x :: x in view <==> x in items && x.category == selected
  {
    if selected == AllCategories then items else Filter(items, InCategory(selected))
  }

  /** The filtered view keeps input order and never invents an item. */
  lemma FilterByCategoryKeepsOrder(items: seq<Item>, selected: string)
    ensures IsSubsequence(FilterByCategory(items, selected), items)
    ensures |FilterByCategory(items, selected)| <= |items|
  {
    if selected == AllCategories {
      FilterKeepsAll(items, (x: Item) => true);
      FilterIsSubsequence(items, (x: Item) => true);
    } else {
      FilterIsSubsequence(items, InCategory(selected));
    }
    SubsequenceBounds(FilterByCategory(items, selected), items);
  }

  /** Completeness, copies included: an item of the selected category
      appears in the view as often as in the input. */
  lemma FilterByCategoryKeepsCopies(items: seq<Item>, selected: string, x: Item)
    requires x.category == selected
    ensures multiset(FilterByCategory(items, selected))[x] == multiset(items)[x]
  {
    if selected != AllCategories {
      FilterKeepsEveryCopy(items, InCategory(selected), x);
    }
  }

  /** The home page's state: the item list, the selected category and the
      header's search text. */
  datatype AppState = AppState(items: seq<Item>, selectedCategory: string, searchQuery: string)

  /** The state of the first render, seeded with the given items. */
  function InitialApp(seed: seq<Item>): (s: AppState)
    ensures s.items == seed && s.searchQuery == ""
    ensures s.selectedCategory == AllCategories
    ensures HomeItems(s) == seed
  {
    AppState(seed, AllCategories, "")
  }

  /** The items the home page shows. */
  function HomeItems(s: AppState): seq<Item> {
    FilterByCategory(s.items, s.selectedCategory)
  }

  /** `{...itemData, image: itemData.image || DEFAULT}`: the submitted
      record with the default picture when it has none. */
  function WithDefaultImage(data: Item): (x: Item)
    ensures x == data.(image := x.image)
    ensures x.image != ""
    ensures data.image != "" ==> x.image == data.image
    ensures data.image == "" ==> x.image == DefaultItemImage
  {
    data.(image := if data.image != "" then data.image else DefaultItemImage)
  }

  /** `[newItem, ...items]` */
  function AddItem(items: seq<Item>, data: Item): (r: seq<Item>)
    ensures |r| == |items| + 1
    ensures r[0] == WithDefaultImage(data) && r[1..] == items
  {
    [WithDefaultImage(data)] + items
  }

  /** `handleAddItem`: only the item list changes. */
  function HandleAddItem(s: AppState, data: Item): (s': AppState)
    ensures s'.selectedCategory == s.selectedCategory && s'.searchQuery == s.searchQuery
    ensures s'.items == AddItem(s.items, data)
  {
    s.(items := AddItem(s.items, data))
  }

  /** A new listing heads the home view whenever the view shows all items
      or the listing's own category. */
  lemma AddedItemHeadsView(s: AppState, data: Item)
    requires s.selectedCategory == AllCategories || s.selectedCategory == data.category
    ensures var view := HomeItems(HandleAddItem(s, data));
            |view| > 0 && view[0] == WithDefaultImage(data)
  {
    var items := AddItem(s.items, data);
    if s.selectedCategory != AllCategories {
      assert items == [items[0]] + items[1..];
    }
  }

  /** A new listing of another category leaves a category view unchanged. */
  lemma AddOtherCategoryKeepsView(s: AppState, data: Item)
    requires s.selectedCategory != AllCategories && s.selectedCategory != data.category
    ensures HomeItems(HandleAddItem(s, data)) == HomeItems(s)
  {
    var items := AddItem(s.items, data);
    assert items[1..] == s.items;
  }

  /** `${n} item${n !== 1 ? 's' : ''} available` */
  function CountLabel(n: nat): (caption: string)
    ensures NatToString(n) <= caption
    ensures n == 1 <==> EndsWith(caption, " item available")
    ensures n != 1 ==> EndsWith(caption, " items available")
    ensures |caption| == |NatToString(n)| + if n == 1 then 15 else 16
  {
    var digits := NatToString(n);
    var caption := digits + " item" + (if n != 1 then "s" else "") + " available";
    assert caption[..|digits|] == digits;
    assert n != 1 ==> caption[|caption| - 15] == caption[|digits| + 1] == 'i';
    caption
  }

  // ------------------------------------------------------------ category page

  /** `categoryItems`: the whole list when the route gives no id, an empty
      id or the "all" sentinel, otherwise the items of that category. */
  function CategoryItems(items: seq<Item>, categoryId: Option<string>): (r: seq<Item>)
    ensures categoryId in {None, Some(""), Some(AllCategories)} ==> r == items
    ensures categoryId !in {None, Some(""), Some(AllCategories)} ==>
              forall x :: x in r <==> x in items && x.category == categoryId.value
  {
    match categoryId
    case None => items
    case Some(id) =>
      if id == "" || id == AllCategories then items else Filter(items, InCategory(id))
  }

  /** For every non-empty id the category page shows what the home page's
      filter shows for the same id. */
  lemma CategoryPageAgreesWithHome(items: seq<Item>, id: string)
    requires id != ""
    ensures CategoryItems(items, Some(id)) == FilterByCategory(items, id)
  {
  }

  /** What the category page renders. */
  datatype CategoryView =
    | CategoryNotFound
    | CategoryListing(category: Category, items: seq<Item>, countLabel: string)

  /** The category page: the first category whose id matches the route, or
      "not found" when there is none (an absent id never matches). */
  function CategoryPage(categories: seq<Category>, items: seq<Item>, categoryId: Option<string>): (v: CategoryView)
    ensures v.CategoryNotFound? <==>
              categoryId.None? || categoryId.value !in CategoryIds(categories)
    ensures v.CategoryListing? ==>
              && v.category in categories
              && v.category.id == categoryId.value
              && v.items == CategoryItems(items, categoryId)
              && v.countLabel == CountLabel(|v.items|)
              && (exists i :: 0 <= i < |categories| && categories[i] == v.category &&
                                (forall j :: 0 <= j < i ==> categories[j].id != v.category.id))
  {
    match categoryId
    case None => CategoryNotFound
    case Some(id) =>
      match Find(categories, (c: Category) => c.id == id)
      case None => CategoryNotFound
      case Some(c) =>
        var shown := CategoryItems(items, categoryId);
        CategoryListing(c, shown, CountLabel(|shown|))
  }

  /** An id that names no category gives "not found" whatever the items are. */
  lemma UnknownCategoryNotFound(categories: seq<Category>, items: seq<Item>, id: string)
    requires id !in CategoryIds(categories)
    ensures CategoryPage(categories, items, Some(id)) == CategoryNotFound
  {
  }

  // -------------------------------------------------------------- search page

  /** The five-field test of the search page for an already lowercased
      query: title, description, category, seller name or location
      contains it, ignoring case. */
  predicate MatchesQuery(item: Item, q: string)
    ensures MatchesQuery(item, q) <==>
              exists i :: || OccursAt(Lower(item.title), q, i)
                          || OccursAt(Lower(item.description), q, i)
                          || OccursAt(Lower(item.category), q, i)
                          || OccursAt(Lower(item.seller.name), q, i)
                          || OccursAt(Lower(item.location), q, i)
  {
    IncludesIffOccurs(Lower(item.title), q);
    IncludesIffOccurs(Lower(item.description), q);
    IncludesIffOccurs(Lower(item.category), q);
    IncludesIffOccurs(Lower(item.seller.name), q);
    IncludesIffOccurs(Lower(item.location), q);
    || Includes(Lower(item.title), q)
    || Includes(Lower(item.description), q)
    || Includes(Lower(item.category), q)
    || Includes(Lower(item.seller.name), q)
    || Includes(Lower(item.location), q)
  }

  function Matches(q: string): Item -> bool {
    (x: Item) => MatchesQuery(x, q)
  }

  /** `searchResults`: nothing for a blank query, otherwise the items that
      match the lowercased query (which is not trimmed). */
  function Search(items: seq<Item>, query: string): (results: seq<Item>)
    ensures IsBlank(query) ==> results == []
    ensures !IsBlank(query) ==>
              forall x :: x in results <==> x in items && MatchesQuery(x, Lower(query))
    ensures |results| <= |items|
  {
    if IsBlank(query) then [] else Filter(items, Matches(Lower(query)))
  }

  /** The results keep input order. */
  lemma SearchKeepsOrder(items: seq<Item>, query: string)
    ensures IsSubsequence(Search(items, query), items)
  {
    if !IsBlank(query) {
      FilterIsSubsequence(items, Matches(Lower(query)));
    }
  }

  /** Completeness, copies included: a matching item appears in the results
      as often as in the input. */
  lemma SearchKeepsCopies(items: seq<Item>, query: string, x: Item)
    requires !IsBlank(query) && MatchesQuery(x, Lower(query))
    ensures multiset(Search(items, query))[x] == multiset(items)[x]
  {
    FilterKeepsEveryCopy(items, Matches(Lower(query)), x);
  }

  /** The case of the query is irrelevant. */
  lemma SearchIgnoresQueryCase(items: seq<Item>, query: string)
    ensures Search(items, query) == Search(items, Lower(query))
  {
    LowerKeepsBlank(query);
    LowerIdempotent(query);
  }

  /** A longer query finds a subsequence of what a query it contains finds. */
  lemma SearchAntiMonotone(items: seq<Item>, q1: string, q2: string)
    requires !IsBlank(q1) && !IsBlank(q2)
    requires Includes(Lower(q2), Lower(q1))
    ensures IsSubsequence(Search(items, q2), Search(items, q1))
  {
    var l1, l2 := Lower(q1), Lower(q2);
    forall x | x in items && Matches(l2)(x) ensures Matches(l1)(x) {
      if Includes(Lower(x.title), l2) {
        IncludesTransitive(Lower(x.title), l2, l1);
      } else if Includes(Lower(x.description), l2) {
        IncludesTransitive(Lower(x.description), l2, l1);
      } else if Includes(Lower(x.category), l2) {
        IncludesTransitive(Lower(x.category), l2, l1);
      } else if Includes(Lower(x.seller.name), l2) {
        IncludesTransitive(Lower(x.seller.name), l2, l1);
      } else {
        IncludesTransitive(Lower(x.location), l2, l1);
      }
    }
    FilterMonotone(items, Matches(l2), Matches(l1));
  }

  /** Only the blank check trims: a padded query is matched with its
      padding, so it can miss an item the bare query finds. */
  lemma SearchKeepsPadding(x: Item)
    requires x.title == "lamp"
    requires x.description == x.category == x.seller.name == x.location == ""
    ensures Search([x], "lamp") == [x]
    ensures Search([x], " lamp") == []
  {
    var bare, padded := "lamp", " lamp";
    LampQueries();
    assert Lower("") == "";
    assert Filter([x], Matches(bare)) == [x] by {
      assert Includes(Lower(x.title), bare);
    }
    assert Filter([x], Matches(padded)) == [] by {
      IncludesNeedsRoom(Lower(x.title), padded);
      IncludesNeedsRoom("", padded);
    }
  }

  lemma LampQueries()
    ensures Lower("lamp") == "lamp" && Lower(" lamp") == " lamp"
    ensures !IsBlank("lamp") && !IsBlank(" lamp")
  {
    var bare, padded := "lamp", " lamp";
    assert Lower(bare) == bare;
    assert Lower(padded) == padded;
    NotBlankAt(bare, 0);
    NotBlankAt(padded, 1);
  }
}

=== FILE: login.dfy ===
/** The sign-in form (src/components/LoginPage.tsx): phone-number
    formatting, the one-time-code sanitiser, and the two-step phone / code
    flow. Each provider call is one atomic step whose reply is an input. */
module Login {
  import opened Sequences
  import opened Text
  import opened Types

  // ------------------------------------------------------------ input fields

  /** `formatPhoneNumber`: '+' and the digits of the input, with a leading
      country code 1 added when the digits do not start with one. */
  function FormatPhone(value: string): (r: string)
    ensures |r| > 0 && r[0] == '+' && AllDigits(r[1..])
    ensures Digits(value) == "" ==> r == "+"
    ensures Digits(value) != "" && Digits(value)[0] != '1' ==> r == "+1" + Digits(value)
    ensures Digits(value) == "" || Digits(value)[0] == '1' ==> r == "+" + Digits(value)
  {
    var digits := Digits(value);
    if |digits| > 0 && digits[0] != '1' then "+1" + digits else "+" + digits
  }

  /** The shape of every formatted phone number: '+', then either nothing
      or digits starting with 1. */
  predicate IsFormattedPhone(s: string) {
    |s| > 0 && s[0] == '+' && AllDigits(s[1..]) && (|s| > 1 ==> s[1] == '1')
  }

  /** Formatted numbers are exactly the fixed points of `FormatPhone`. */
  lemma FormattedPhoneIsFixedPoint(s: string)
    ensures IsFormattedPhone(s) <==> FormatPhone(s) == s
  {
    if IsFormattedPhone(s) {
      assert s == "+" + s[1..];
      DigitsAppend("+", s[1..]);
      DigitsOfDigits(s[1..]);
      assert Digits("+") == "";
    }
  }

  /** `FormatPhone` always produces a formatted number, so formatting the
      already-formatted value the input field feeds back changes nothing. */
  lemma FormatPhoneIdempotent(value: string)
    ensures IsFormattedPhone(FormatPhone(value))
    ensures FormatPhone(FormatPhone(value)) == FormatPhone(value)
  {
    var r := FormatPhone(value);
    var digits := Digits(value);
    if |digits| > 0 && digits[0] != '1' {
      assert r[1..] == "1" + digits;
    } else {
      assert r[1..] == digits;
    }
    FormattedPhoneIsFixedPoint(r);
  }

  /** The longest code the form accepts. */
  const OtpLength: nat := 6

  /** `value.replace(/\D/g, '').slice(0, 6)`: the first six digits. */
  function SanitizeOtp(value: string): (r: string)
    ensures AllDigits(r)
    ensures r <= Digits(value)
    ensures |r| == if |Digits(value)| < OtpLength then |Digits(value)| else OtpLength
  {
    var digits := Digits(value);
    digits[..if |digits| < OtpLength then |digits| else OtpLength]
  }

  /** Sanitising a sanitised code changes nothing. */
  lemma SanitizeOtpIdempotent(value: string)
    ensures SanitizeOtp(SanitizeOtp(value)) == SanitizeOtp(value)
  {
    DigitsOfDigits(SanitizeOtp(value));
  }

  // -------------------------------------------------------------- form state

  datatype AuthMethod = PhoneMethod | GoogleMethod
  datatype Step = PhoneStep | OtpStep

  /** The component's state hooks. */
  datatype LoginForm = LoginForm(
    authMethod: AuthMethod,
    phone: string,
    otp: string,
    step: Step,
    loading: bool,
    error: string)

  const InitialLogin: LoginForm := LoginForm(PhoneMethod, "", "", PhoneStep, false, "")

  /** How a provider call ended: it resolved with an `{ error? }` record,
      or it threw with a message. */
  datatype Reply = Resolved(error: Option<string>) | Threw(message: string)

  /** The error text the handler stores, if any. A resolved `error` counts
      only when it is a non-empty string; a throw stores its message, or
      `fallback` when the message is empty. */
  function ReplyError(reply: Reply, fallback: string): (e: Option<string>)
    requires fallback != ""
    ensures e.Some? ==> e.value != ""
    ensures e.None? <==> reply.Resolved? && (reply.error.None? || reply.error.value == "")
    ensures reply.Resolved? && e.Some? ==> e == reply.error
    ensures reply.Threw? ==> e == Some(if reply.message != "" then reply.message else fallback)
  {
    match reply
    case Resolved(error) => if error.Some? && error.value != "" then error else None
    case Threw(message) => Some(if message != "" then message else fallback)
  }

  /** `handlePhoneSubmit`: a blank phone does nothing and calls nobody;
      otherwise the code is requested and the form moves to the code step
      exactly when the reply carries no error, storing the error if it
      does. */
  function SubmitPhone(f: LoginForm, reply: Reply): (g: LoginForm)
    ensures IsBlank(f.phone) ==> g == f
    ensures !IsBlank(f.phone) ==>
              && g.authMethod == f.authMethod && g.phone == f.phone && g.otp == f.otp
              && !g.loading
              && (ReplyError(reply, "Failed to send OTP").None? ==> g.step == OtpStep && g.error == "")
              && (ReplyError(reply, "Failed to send OTP").Some? ==>
                    g.step == f.step && g.error == ReplyError(reply, "Failed to send OTP").value)
  {
    if IsBlank(f.phone) then f
    else
      match ReplyError(reply, "Failed to send OTP")
      case None => f.(loading := false, error := "", step := OtpStep)
      case Some(e) => f.(loading := false, error := e)
  }

  /** `handleOTPSubmit`: a blank code does nothing; otherwise the code is
      verified, a clean reply navigates home and an error is stored. */
  function SubmitOtp(f: LoginForm, reply: Reply): (r: (LoginForm, Action))
    ensures IsBlank(f.otp) ==> r == (f, NoOp)
    ensures !IsBlank(f.otp) ==>
              && r.0 == f.(loading := false, error := r.0.error)
              && (ReplyError(reply, "Failed to verify OTP").None? <==> r.1 == Navigate("/"))
              && (r.1 != Navigate("/") ==> r.1 == NoOp && r.0.error != "")
              && (ReplyError(reply, "Failed to verify OTP").Some? ==>
                    r.0.error == ReplyError(reply, "Failed to verify OTP").value)
              && (r.1 == Navigate("/") ==> r.0.error == "")
  {
    if IsBlank(f.otp) then (f, NoOp)
    else
      match ReplyError(reply, "Failed to verify OTP")
      case None => (f.(loading := false, error := ""), Navigate("/"))
      case Some(e) => (f.(loading := false, error := e), NoOp)
  }

  /** `handleGoogleSignIn`: the redirect leaves the form as it was apart
      from clearing the error; a throw stores its message. */
  function GoogleSignIn(f: LoginForm, thrown: Option<string>): (g: LoginForm)
    ensures g == f.(loading := false, error := g.error)
    ensures thrown.None? <==> g.error == ""
    ensures thrown.Some? ==>
              g.error == if thrown.value != "" then thrown.value else "Failed to sign in with Google"
  {
    match thrown
    case None => f.(loading := false, error := "")
    case Some(m) => f.(loading := false, error := if m != "" then m else "Failed to sign in with Google")
  }

  /** "Use a different phone number": back to the phone step with the code
      and error cleared and the phone kept. */
  function UseDifferentPhone(f: LoginForm): (g: LoginForm)
    ensures g.step == PhoneStep && g.otp == "" && g.error == ""
    ensures g.phone == f.phone && g.authMethod == f.authMethod && g.loading == f.loading
  {
    f.(step := PhoneStep, otp := "", error := "")
  }

  /** The phone button is disabled while loading or for a blank phone. */
  predicate SendCodeDisabled(f: LoginForm)
    ensures !SendCodeDisabled(f) ==> !f.loading && |f.phone| > 0
  {
    f.loading || IsBlank(f.phone)
  }

  /** The verify button is disabled while loading or unless the code has
      exactly six characters. */
  predicate VerifyDisabled(f: LoginForm)
    ensures !VerifyDisabled(f) <==> !f.loading && |f.otp| == OtpLength
  {
    f.loading || |f.otp| != OtpLength
  }

  // ----------------------------------------------------------- state machine

  datatype LoginEvent =
    | TypePhone(raw: string)
    | TypeOtp(raw: string)
    | ChooseMethod(m: AuthMethod)
    | PressSendCode(reply: Reply)
    | PressVerify(reply: Reply)
    | PressGoogle(thrown: Option<string>)
    | PressUseDifferentPhone

  /** One user interaction. A press of a disabled submit button does
      nothing; with the button disabled, Enter in the field does not submit
      the form either. */
  function Apply(f: LoginForm, e: LoginEvent): (g: LoginForm)
    ensures g.authMethod != f.authMethod ==> e.ChooseMethod?
    ensures g.phone != f.phone ==> e.TypePhone?
    ensures g.otp != f.otp ==> e.TypeOtp? || e.PressUseDifferentPhone?
    ensures g.step != f.step ==> e.PressSendCode? || e.PressUseDifferentPhone?
    ensures g.error != f.error ==> e.PressSendCode? || e.PressVerify? || e.PressGoogle? || e.PressUseDifferentPhone?
    ensures e.PressSendCode? && SendCodeDisabled(f) ==> g == f
    ensures e.PressVerify? && VerifyDisabled(f) ==> g == f
    ensures e.PressGoogle? && f.loading ==> g == f
    ensures e.PressSendCode? && !SendCodeDisabled(f) ==> g == SubmitPhone(f, e.reply)
    ensures e.PressVerify? && !VerifyDisabled(f) ==> g == SubmitOtp(f, e.reply).0
    ensures e.PressGoogle? && !f.loading ==> g == GoogleSignIn(f, e.thrown)
  {
    match e
    case TypePhone(raw) => f.(phone := FormatPhone(raw))
    case TypeOtp(raw) => f.(otp := SanitizeOtp(raw))
    case ChooseMethod(m) => f.(authMethod := m)
    case PressSendCode(reply) => if SendCodeDisabled(f) then f else SubmitPhone(f, reply)
    case PressVerify(reply) => if VerifyDisabled(f) then f else SubmitOtp(f, reply).0
    case PressGoogle(thrown) => if f.loading then f else GoogleSignIn(f, thrown)
    case PressUseDifferentPhone => UseDifferentPhone(f)
  }

  function Run(f: LoginForm, events: seq<LoginEvent>): LoginForm
    decreases |events|
  {
    if |events| == 0 then f else Run(Apply(f, events[0]), events[1..])
  }

  /** What holds between interactions: the phone is empty or formatted, the
      code is at most six digits, and no call is pending (each call is one
      atomic step, so this last part holds by construction). */
  predicate WellFormed(f: LoginForm) {
    && (f.phone == "" || IsFormattedPhone(f.phone))
    && AllDigits(f.otp) && |f.otp| <= OtpLength
    && !f.loading
  }

  /** Every interaction keeps the form well formed. */
  lemma ApplyKeepsWellFormed(f: LoginForm, e: LoginEvent)
    requires WellFormed(f)
    ensures WellFormed(Apply(f, e))
  {
    if e.TypePhone? {
      FormatPhoneIdempotent(e.raw);
    }
  }

  /** Every form reachable from the initial one is well formed. */
  lemma {:induction false} RunKeepsWellFormed(f: LoginForm, events: seq<LoginEvent>)
    requires WellFormed(f)
    ensures WellFormed(Run(f, events))
    decreases |events|
  {
    if |events| > 0 {
      ApplyKeepsWellFormed(f, events[0]);
      RunKeepsWellFormed(Apply(f, events[0]), events[1..]);
    }
  }

  /** The code step is entered only by a send-code press whose reply has no
      error, for a non-blank phone. */
  lemma OtpStepOnlyAfterCleanReply(f: LoginForm, e: LoginEvent)
    requires f.step == PhoneStep && Apply(f, e).step == OtpStep
    ensures e.PressSendCode? && !IsBlank(f.phone)
    ensures ReplyError(e.reply, "Failed to send OTP").None?
  {
  }

  /** An enabled send-code press whose reply has no error moves a
      well-formed form to the code step with the error cleared; one whose
      reply has an error stores it and keeps the step. */
  lemma SendCodeAdvances(f: LoginForm, reply: Reply)
    requires WellFormed(f) && !IsBlank(f.phone)
    ensures ReplyError(reply, "Failed to send OTP").None? ==>
              Apply(f, PressSendCode(reply)).step == OtpStep && Apply(f, PressSendCode(reply)).error == ""
    ensures ReplyError(reply, "Failed to send OTP").Some? ==>
              Apply(f, PressSendCode(reply)).step == f.step &&
              Apply(f, PressSendCode(reply)).error == ReplyError(reply, "Failed to send OTP").value
  {
  }

  /** With a full code, a verify press runs the code check: the error is
      the reply's, or empty when the reply is clean. */
  lemma VerifyActs(f: LoginForm, reply: Reply)
    requires WellFormed(f) && |f.otp| == OtpLength
    ensures Apply(f, PressVerify(reply)) == SubmitOtp(f, reply).0
    ensures ReplyError(reply, "Failed to verify OTP").None? ==> Apply(f, PressVerify(reply)).error == ""
    ensures ReplyError(reply, "Failed to verify OTP").Some? ==>
              Apply(f, PressVerify(reply)).error == ReplyError(reply, "Failed to verify OTP").value
  {
    NotBlankAt(f.otp, 0);
  }

  /** Typing a phone enables the send-code button of an idle form. */
  lemma TypedPhoneEnablesSend(f: LoginForm, raw: string)
    requires !f.loading
    ensures !SendCodeDisabled(Apply(f, TypePhone(raw)))
  {
    TypedPhoneNeverBlank(f, raw);
  }

  /** Typing at least six digits enables the verify button of an idle
      form. */
  lemma SixDigitsEnableVerify(f: LoginForm, raw: string)
    requires !f.loading && |Digits(raw)| >= OtpLength
    ensures !VerifyDisabled(Apply(f, TypeOtp(raw)))
  {
  }

  /** A verify press changes the form only with a full six-digit code. */
  lemma VerifyNeedsFullCode(f: LoginForm, reply: Reply)
    requires WellFormed(f) && Apply(f, PressVerify(reply)) != f
    ensures |f.otp| == OtpLength && AllDigits(f.otp) && !IsBlank(f.otp)
  {
    NotBlankAt(f.otp, 0);
  }

  /** Once the phone has been typed in, it is never blank, even when every
      digit was deleted: "+" alone passes the blank check. */
  lemma TypedPhoneNeverBlank(f: LoginForm, raw: string)
    ensures !IsBlank(Apply(f, TypePhone(raw)).phone)
  {
    NotBlankAt(FormatPhone(raw), 0);
  }
}

=== FILE: navigation.dfy ===
/** The click and submit decisions of the category bar
    (src/components/CategoryFilter.tsx), the header's search box
    (src/components/Header.tsx) and an item card
    (src/components/ItemCard.tsx), returned as `Action` values. */
module Navigation {
  import opened Sequences
  import opened Text
  import opened Types
  import opened Routes
  import Listings

  // ------------------------------------------------------------ category bar

  /** `handleCategoryClick`: the "all" button selects the sentinel in place;
      every other button navigates to its category page and leaves the
      selection alone. */
  function CategoryClick(categoryId: string): (a: Action)
    ensures a.SetCategory? <==> categoryId == AllCategories
    ensures a.SetCategory? ==> a.id == AllCategories
    ensures !a.SetCategory? ==> a.Navigate? && ParseRoute(a.path) == Some(CategoryRoute(categoryId))
  {
    if categoryId == AllCategories then SetCategory(categoryId)
    else
      RouteRoundTrip(CategoryRoute(categoryId));
      Navigate(RoutePath(CategoryRoute(categoryId)))
  }

  /** The selection after a click: only the "all" button changes it. */
  function SelectionAfterClick(selected: string, categoryId: string): (s: string)
    ensures categoryId == AllCategories ==> s == AllCategories
    ensures categoryId != AllCategories ==> s == selected
  {
    match CategoryClick(categoryId)
    case SetCategory(id) => id
    case _ => selected
  }

  /** One rendered button of the category bar. */
  datatype FilterButton = FilterButton(id: string, name: string, icon: string, badge: int, highlighted: bool)

  function Button(selected: string): Category -> FilterButton {
    (c: Category) => FilterButton(c.id, c.name, c.icon, c.count, selected == c.id)
  }

  /** The category bar: one button per category, in list order, showing
      the stored count and highlighted exactly when it is the selection. */
  function FilterButtons(categories: seq<Category>, selected: string): (buttons: seq<FilterButton>)
    ensures |buttons| == |categories|
    ensures forall i :: 0 <= i < |categories| ==>
              && buttons[i].id == categories[i].id
              && buttons[i].name == categories[i].name
              && buttons[i].icon == categories[i].icon
              && buttons[i].badge == categories[i].count
              && (buttons[i].highlighted <==> categories[i].id == selected)
  {
    Map(categories, Button(selected))
  }

  /** With unique category ids at most one button is highlighted, and one
      is exactly when the selection is a listed id. */
  lemma AtMostOneHighlighted(categories: seq<Category>, selected: string)
    requires NoDuplicates(CategoryIds(categories))
    ensures var buttons := FilterButtons(categories, selected);
            && (forall i, j :: 0 <= i < j < |buttons| ==> !(buttons[i].highlighted && buttons[j].highlighted))
            && ((exists i :: 0 <= i < |buttons| && buttons[i].highlighted) <==> selected in CategoryIds(categories))
  {
    var ids := CategoryIds(categories);
    var buttons := FilterButtons(categories, selected);
    forall i, j | 0 <= i < j < |buttons| ensures !(buttons[i].highlighted && buttons[j].highlighted) {
      assert ids[i] != ids[j];
    }
    if selected in ids {
      var i :| 0 <= i < |ids| && ids[i] == selected;
      assert buttons[i].highlighted;
    }
  }

  // ------------------------------------------------------------------ header

  /** `handleSearchSubmit`: nothing for a blank query, otherwise the search
      route carrying the encoded trimmed query. `encode` stands for
      `encodeURIComponent`. */
  function SearchSubmit(query: string, encode: string -> string): (a: Action)
    ensures a.NoOp? <==> IsBlank(query)
    ensures a.Navigate? ==> ParseRoute(a.path) == Some(SearchRoute(encode(Trim(query))))
    ensures !a.SetCategory?
  {
    if IsBlank(query) then NoOp
    else
      RouteRoundTrip(SearchRoute(encode(Trim(query))));
      Navigate(RoutePath(SearchRoute(encode(Trim(query)))))
  }

  /** The decision depends only on the trimmed query. */
  lemma SearchSubmitSeesOnlyTrimmed(query: string, encode: string -> string)
    ensures SearchSubmit(query, encode) == SearchSubmit(Trim(query), encode)
  {
    TrimIdempotent(query);
  }

  /** When the header navigates, the query it carries is non-blank and
      already trimmed, so if `decode` undoes `encode` the search page never
      takes its blank-query branch for it: its results are the five-field
      matches of the carried query. */
  lemma HeaderQueryIsNeverBlank(query: string, encode: string -> string, decode: string -> string, items: seq<Item>)
    requires SearchSubmit(query, encode).Navigate?
    requires forall q :: decode(encode(q)) == q
    ensures var carried := decode(encode(Trim(query)));
            && carried == Trim(query)
            && Trim(carried) == carried
            && !IsBlank(carried)
            && Listings.Search(items, carried) == Filter(items, Listings.Matches(Lower(carried)))
  {
    TrimIdempotent(query);
  }

  // --------------------------------------------------------------- item card

  /** `handleClick` of an item card: the item's own page. */
  function CardClick(item: Item): (a: Action)
    ensures a.Navigate? && ParseRoute(a.path) == Some(ItemRoute(item.id))
  {
    RouteRoundTrip(ItemRoute(item.id));
    Navigate(RoutePath(ItemRoute(item.id)))
  }
}

=== FILE: routes.dfy ===
/** The client-side routes the handlers navigate to, and how a path is read
    back into a route (the `<Route path=...>` table of the application). */
module Routes {
  import opened Sequences

  datatype Route =
    | Home
    | ItemRoute(id: string)
    | CategoryRoute(categoryId: string)
    | SearchRoute(encodedQuery: string)

  const ItemPrefix: string := "/item/"
  const CategoryPrefix: string := "/category/"
  const SearchPrefix: string := "/search?q="

  /** The path a route is navigated to with. */
  function RoutePath(r: Route): string {
    match r
    case Home => "/"
    case ItemRoute(id) => ItemPrefix + id
    case CategoryRoute(id) => CategoryPrefix + id
    case SearchRoute(q) => SearchPrefix + q
  }

  /** The route a path selects, matching the fixed prefixes. */
  function ParseRoute(path: string): Option<Route> {
    if path == "/" then Some(Home)
    else if ItemPrefix <= path then Some(ItemRoute(path[|ItemPrefix|..]))
    else if CategoryPrefix <= path then Some(CategoryRoute(path[|CategoryPrefix|..]))
    else if SearchPrefix <= path then Some(SearchRoute(path[|SearchPrefix|..]))
    else None
  }

  /** Reading back the path of a route gives the route: the parameter a page
      reads is exactly the one the handler put in. */
  lemma RouteRoundTrip(r: Route)
    ensures ParseRoute(RoutePath(r)) == Some(r)
  {
    var p := RoutePath(r);
    match r
    case Home =>
    case ItemRoute(id) =>
      assert p[|ItemPrefix|..] == id;
    case CategoryRoute(id) =>
      assert p[1] == 'c';
      assert p[|CategoryPrefix|..] == id;
    case SearchRoute(q) =>
      assert p[1] == 's';
      assert p[|SearchPrefix|..] == q;
  }

  /** Different routes have different paths. */
  lemma RoutePathInjective(r1: Route, r2: Route)
    requires RoutePath(r1) == RoutePath(r2)
    ensures r1 == r2
  {
    RouteRoundTrip(r1);
    RouteRoundTrip(r2);
  }
}

=== FILE: sequences.dfy ===
/** Generic sequence operations the components are built from: the
    order-preserving `filter` of JavaScript arrays, a mapping, and the
    subsequence relation used to state that a view keeps input order. */
module Sequences {

  datatype Option<T> = None | Some(value: T)

  /** The index of the first element satisfying `p`, if any
      (`Array.prototype.findIndex`). */
  function FindIndex<T>(s: seq<T>, p: T -> bool): (r: Option<nat>)
    ensures r.Some? ==> r.value < |s| && p(s[r.value])
    ensures r.Some? ==> forall j :: 0 <= j < r.value ==> !p(s[j])
    ensures r.None? ==> forall j :: 0 <= j < |s| ==> !p(s[j])
  {
    if |s| == 0 then None
    else if p(s[0]) then Some(0)
    else match FindIndex(s[1..], p)
      case None => None
      case Some(i) => Some(i + 1)
  }

  /** The first element satisfying `p`, if any (`Array.prototype.find`). */
  function Find<T>(s: seq<T>, p: T -> bool): (r: Option<T>)
    ensures r.None? <==> forall j :: 0 <= j < |s| ==> !p(s[j])
    ensures r.Some? ==> exists i :: 0 <= i < |s| && s[i] == r.value && p(s[i]) &&
                                   forall j :: 0 <= j < i ==> !p(s[j])
  {
    match FindIndex(s, p)
    case None => None
    case Some(i) => Some(s[i])
  }

  /** The elements of `s` that satisfy `p`, in their original order
      (`Array.prototype.filter`). */
  function Filter<T(==,!new)>(s: seq<T>, p: T -> bool): (r: seq<T>)
    ensures |r| <= |s|
    ensures forall i :: 0 <= i < |r| ==> p(r[i])
    ensures forall x :: x in r <==> x in s && p(x)
  {
    if |s| == 0 then []
    else if p(s[0]) then [s[0]] + Filter(s[1..], p)
    else Filter(s[1..], p)
  }

  /** `f` applied to each element (`Array.prototype.map`). */
  function Map<A, B>(s: seq<A>, f: A -> B): (r: seq<B>)
    ensures |r| == |s|
    ensures forall i :: 0 <= i < |s| ==> r[i] == f(s[i])
  {
    if |s| == 0 then [] else [f(s[0])] + Map(s[1..], f)
  }

  /** `a` is obtained from `b` by deleting elements, without reordering. */
  predicate IsSubsequence<T(==,!new)>(a: seq<T>, b: seq<T>)
    decreases |b|
  {
    |a| == 0 ||
    (|b| > 0 &&
     ((a[0] == b[0] && IsSubsequence(a[1..], b[1..])) || IsSubsequence(a, b[1..])))
  }

  /** No value occurs twice. */
  predicate NoDuplicates<T(==,!new)>(s: seq<T>) {
    forall i, j :: 0 <= i < j < |s| ==> s[i] != s[j]
  }

  /** A subsequence is no longer than the sequence and draws its elements from it. */
  lemma {:induction false} SubsequenceBounds<T(!new)>(a: seq<T>, b: seq<T>)
    requires IsSubsequence(a, b)
    ensures |a| <= |b|
    ensures forall x :: x in a ==> x in b
    decreases |b|
  {
    if |a| == 0 {
    } else if a[0] == b[0] && IsSubsequence(a[1..], b[1..]) {
      SubsequenceBounds(a[1..], b[1..]);
      forall x | x in a ensures x in b {
        if x != a[0] {
          assert x in a[1..];
        }
      }
    } else {
      SubsequenceBounds(a, b[1..]);
    }
  }

  /** A subsequence of a duplicate-free sequence is duplicate-free. */
  lemma {:induction false} SubsequenceNoDuplicates<T(!new)>(a: seq<T>, b: seq<T>)
    requires IsSubsequence(a, b)
    requires NoDuplicates(b)
    ensures NoDuplicates(a)
    decreases |b|
  {
    if |a| == 0 {
    } else if a[0] == b[0] && IsSubsequence(a[1..], b[1..]) {
      SubsequenceNoDuplicates(a[1..], b[1..]);
      SubsequenceBounds(a[1..], b[1..]);
      forall j | 0 < j < |a| ensures a[0] != a[j] {
        assert a[j] in a[1..];
        assert a[j] in b[1..];
      }
    } else {
      SubsequenceNoDuplicates(a, b[1..]);
    }
  }

  /** Filtering keeps input order: the result is a subsequence of the input. */
  lemma {:induction false} FilterIsSubsequence<T(!new)>(s: seq<T>, p: T -> bool)
    ensures IsSubsequence(Filter(s, p), s)
    decreases |s|
  {
    if |s| > 0 {
      FilterIsSubsequence(s[1..], p);
    }
  }

  /** A weaker predicate keeps more: filtering by `p` yields a subsequence of
      filtering by any `q` that `p` implies on the elements of `s`. */
  lemma {:induction false} FilterMonotone<T(!new)>(s: seq<T>, p: T -> bool, q: T -> bool)
    requires forall x :: x in s && p(x) ==> q(x)
    ensures IsSubsequence(Filter(s, p), Filter(s, q))
    decreases |s|
  {
    if |s| > 0 {
      assert forall x :: x in s[1..] ==> x in s;
      FilterMonotone(s[1..], p, q);
      var fp, fq := Filter(s, p), Filter(s, q);
      if p(s[0]) {
        assert fp[0] == fq[0] && fp[1..] == Filter(s[1..], p) && fq[1..] == Filter(s[1..], q);
      } else if q(s[0]) {
        SubsequenceDropFirst(Filter(s[1..], p), Filter(s[1..], q), s[0]);
      }
    }
  }

  /** Putting an element in front of the bigger sequence keeps the relation. */
  lemma SubsequenceDropFirst<T(!new)>(a: seq<T>, b: seq<T>, x: T)
    requires IsSubsequence(a, b)
    ensures IsSubsequence(a, [x] + b)
  {
    if |a| > 0 {
      assert ([x] + b)[1..] == b;
    }
  }

  /** Predicates that agree on the elements of `s` filter it identically. */
  lemma {:induction false} FilterExtensional<T(!new)>(s: seq<T>, p: T -> bool, q: T -> bool)
    requires forall x :: x in s ==> p(x) == q(x)
    ensures Filter(s, p) == Filter(s, q)
    decreases |s|
  {
    if |s| > 0 {
      assert forall x :: x in s[1..] ==> x in s;
      FilterExtensional(s[1..], p, q);
    }
  }

  /** A predicate that holds everywhere on `s` keeps all of `s`. */
  lemma {:induction false} FilterKeepsAll<T(!new)>(s: seq<T>, p: T -> bool)
    requires forall x :: x in s ==> p(x)
    ensures Filter(s, p) == s
    decreases |s|
  {
    if |s| > 0 {
      assert forall x :: x in s[1..] ==> x in s;
      FilterKeepsAll(s[1..], p);
    }
  }

  /** A predicate that holds nowhere on `s` keeps nothing. */
  lemma {:induction false} FilterKeepsNone<T(!new)>(s: seq<T>, p: T -> bool)
    requires forall x :: x in s ==> !p(x)
    ensures Filter(s, p) == []
    decreases |s|
  {
    if |s| > 0 {
      assert forall x :: x in s[1..] ==> x in s;
      FilterKeepsNone(s[1..], p);
    }
  }

  /** Appending one element to the input appends it to the result exactly
      when it satisfies the predicate. */
  lemma {:induction false} FilterSnoc<T(!new)>(s: seq<T>, x: T, p: T -> bool)
    ensures Filter(s + [x], p) == Filter(s, p) + (if p(x) then [x] else [])
    decreases |s|
  {
    if |s| == 0 {
      assert s + [x] == [x];
    } else {
      assert (s + [x])[0] == s[0];
      assert (s + [x])[1..] == s[1..] + [x];
      FilterSnoc(s[1..], x, p);
    }
  }

  /** Filtering never loses a copy of an element that satisfies the predicate. */
  lemma {:induction false} FilterKeepsEveryCopy<T(!new)>(s: seq<T>, p: T -> bool, x: T)
    requires p(x)
    ensures multiset(Filter(s, p))[x] == multiset(s)[x]
    decreases |s|
  {
    if |s| > 0 {
      FilterKeepsEveryCopy(s[1..], p, x);
      assert s == [s[0]] + s[1..];
    }
  }

  /** Filtering by two predicates that never both hold, and whose disjunction
      is `pq`, splits the `pq`-filter: the two results together hold exactly
      the same elements, copies included. */
  lemma {:induction false} FilterSplit<T(!new)>(s: seq<T>, p: T -> bool, q: T -> bool, pq: T -> bool)
    requires forall x :: x in s ==> pq(x) == (p(x) || q(x)) && !(p(x) && q(x))
    ensures multiset(Filter(s, p)) + multiset(Filter(s, q)) == multiset(Filter(s, pq))
    decreases |s|
  {
    if |s| > 0 {
      assert forall x :: x in s[1..] ==> x in s;
      FilterSplit(s[1..], p, q, pq);
    }
  }

  /** Filtering distributes over concatenation. */
  lemma {:induction false} FilterAppend<T(!new)>(a: seq<T>, b: seq<T>, p: T -> bool)
    ensures Filter(a + b, p) == Filter(a, p) + Filter(b, p)
    decreases |a|
  {
    if |a| == 0 {
      assert a + b == b;
    } else {
      assert (a + b)[0] == a[0];
      assert (a + b)[1..] == a[1..] + b;
      FilterAppend(a[1..], b, p);
    }
  }

  /** The first kept element is the first element satisfying the
      predicate. */
  lemma {:induction false} FilterHead<T(!new)>(s: seq<T>, p: T -> bool, i: nat)
    requires i < |s| && p(s[i])
    requires forall j :: 0 <= j < i ==> !p(s[j])
    ensures |Filter(s, p)| > 0 && Filter(s, p)[0] == s[i]
    decreases i
  {
    if i > 0 {
      FilterHead(s[1..], p, i - 1);
    }
  }

  /** Mapping distributes over concatenation. */
  lemma {:induction false} MapAppend<A, B>(a: seq<A>, b: seq<A>, f: A -> B)
    ensures Map(a + b, f) == Map(a, f) + Map(b, f)
    decreases |a|
  {
    if |a| == 0 {
      assert a + b == b;
    } else {
      assert (a + b)[0] == a[0];
      assert (a + b)[1..] == a[1..] + b;
      MapAppend(a[1..], b, f);
    }
  }

  /** Cutting one element out of a sequence loses exactly that element. */
  lemma SpliceMultiset<T>(s: seq<T>, i: nat)
    requires i < |s|
    ensures multiset(s[..i] + s[i + 1..]) + multiset{s[i]} == multiset(s)
  {
    assert s == s[..i] + [s[i]] + s[i + 1..];
  }

  /** When exactly one element satisfies `p`, `Find` returns it. */
  lemma FindOnly<T>(s: seq<T>, p: T -> bool, i: nat)
    requires i < |s| && p(s[i])
    requires forall j :: 0 <= j < |s| && j != i ==> !p(s[j])
    ensures Find(s, p) == Some(s[i])
  {
  }
}

=== FILE: text.dfy ===
/** String helpers with the behaviour of the JavaScript built-ins the
    components call, restricted to ASCII: `trim`, `toLowerCase`, `includes`,
    `startsWith`, the `/\D/g` digit strip and decimal rendering of numbers. */
module Text {
  import opened Sequences

  /** The ASCII characters `String.prototype.trim` removes. */
  predicate IsSpace(c: char) {
    c == ' ' || c == '\t' || c == '\n' || c == '\r' || c == '\U{000B}' || c == '\U{000C}'
  }

  /** Leading whitespace removed. */
  function TrimStart(s: string): (r: string)
    ensures |r| <= |s| && r == s[|s| - |r|..]
    ensures forall i :: 0 <= i < |s| - |r| ==> IsSpace(s[i])
    ensures |r| > 0 ==> !IsSpace(r[0])
    decreases |s|
  {
    if |s| > 0 && IsSpace(s[0]) then TrimStart(s[1..]) else s
  }

  /** Trailing whitespace removed. */
  function TrimEnd(s: string): (r: string)
    ensures |r| <= |s| && r == s[..|r|]
    ensures forall i :: |r| <= i < |s| ==> IsSpace(s[i])
    ensures |r| > 0 ==> !IsSpace(r[|r| - 1])
    decreases |s|
  {
    if |s| > 0 && IsSpace(s[|s| - 1]) then TrimEnd(s[..|s| - 1]) else s
  }

  /** `s.trim()`. */
  function Trim(s: string): string {
    TrimEnd(TrimStart(s))
  }

  /** `!s.trim()`: the string is empty or whitespace only. */
  predicate IsBlank(s: string) {
    Trim(s) == ""
  }

  /** Blank means every character is whitespace. */
  lemma BlankIffAllSpace(s: string)
    ensures IsBlank(s) <==> forall i :: 0 <= i < |s| ==> IsSpace(s[i])
  {
  }

  /** One non-whitespace character makes a string non-blank. */
  lemma NotBlankAt(s: string, i: int)
    requires 0 <= i < |s| && !IsSpace(s[i])
    ensures !IsBlank(s)
  {
    BlankIffAllSpace(s);
  }

  /** A trimmed string has no whitespace at either end. */
  lemma TrimEnds(s: string)
    ensures var t := Trim(s); |t| > 0 ==> !IsSpace(t[0]) && !IsSpace(t[|t| - 1])
  {
    var u := TrimStart(s);
    var t := TrimEnd(u);
    if |t| > 0 {
      assert t[0] == u[0];
    }
  }

  /** Trimming twice is trimming once, and a string is blank exactly when
      its trimmed form is. */
  lemma TrimIdempotent(s: string)
    ensures Trim(Trim(s)) == Trim(s)
    ensures IsBlank(Trim(s)) <==> IsBlank(s)
  {
    var t := Trim(s);
    TrimEnds(s);
    if |t| > 0 {
      assert TrimStart(t) == t;
      assert TrimEnd(t) == t;
    }
  }

  /** ASCII `toLowerCase` of one character. */
  function LowerChar(c: char): char {
    if 'A' <= c <= 'Z' then (c as int + 32) as char else c
  }

  /** ASCII `s.toLowerCase()`. */
  function Lower(s: string): (r: string)
    ensures |r| == |s|
  {
    seq(|s|, i requires 0 <= i < |s| => LowerChar(s[i]))
  }

  /** Lowercasing is idempotent and leaves no upper-case letter. */
  lemma LowerIdempotent(s: string)
    ensures Lower(Lower(s)) == Lower(s)
    ensures forall i :: 0 <= i < |s| ==> !('A' <= Lower(s)[i] <= 'Z')
  {
    assert forall i :: 0 <= i < |s| ==> Lower(Lower(s))[i] == LowerChar(LowerChar(s[i]));
  }

  /** Lowercasing neither creates nor removes whitespace, so it cannot
      change whether a string is blank. */
  lemma LowerKeepsBlank(s: string)
    ensures IsBlank(Lower(s)) <==> IsBlank(s)
  {
    BlankIffAllSpace(s);
    BlankIffAllSpace(Lower(s));
    forall i | 0 <= i < |s| ensures IsSpace(Lower(s)[i]) <==> IsSpace(s[i]) {
      LowerCharKeepsSpace(s[i]);
    }
  }

  lemma LowerCharKeepsSpace(c: char)
    ensures IsSpace(LowerChar(c)) <==> IsSpace(c)
  {
  }

  /** `t` occurs in `s` starting at index `i`. */
  ghost predicate OccursAt(s: string, t: string, i: int) {
    0 <= i && i + |t| <= |s| && s[i..i + |t|] == t
  }

  /** `s.includes(t)`, by scanning the start positions of `s` left to right. */
  predicate Includes(s: string, t: string)
    decreases |s|
  {
    t <= s || (|s| > 0 && Includes(s[1..], t))
  }

  /** Where `Includes` holds, `t` occurs at some position of `s`. */
  lemma {:induction false} IncludesFindsOccurrence(s: string, t: string)
    requires Includes(s, t)
    ensures exists i :: OccursAt(s, t, i)
    decreases |s|
  {
    if t <= s {
      assert OccursAt(s, t, 0);
    } else {
      IncludesFindsOccurrence(s[1..], t);
      var i :| OccursAt(s[1..], t, i);
      assert s[1..][i..i + |t|] == s[i + 1..i + 1 + |t|];
      assert OccursAt(s, t, i + 1);
    }
  }

  /** An occurrence at any position is found by the scan. */
  lemma {:induction false} OccurrenceGivesIncludes(s: string, t: string, i: int)
    requires OccursAt(s, t, i)
    ensures Includes(s, t)
    decreases i
  {
    if i == 0 {
      assert s[..|t|] == t;
    } else {
      assert s[1..][i - 1..i - 1 + |t|] == s[i..i + |t|];
      OccurrenceGivesIncludes(s[1..], t, i - 1);
    }
  }

  /** `Includes` holds exactly when `t` occurs in `s` at some position. */
  lemma IncludesIffOccurs(s: string, t: string)
    ensures Includes(s, t) <==> exists i :: OccursAt(s, t, i)
  {
    if Includes(s, t) {
      IncludesFindsOccurrence(s, t);
    }
    if exists i :: OccursAt(s, t, i) {
      var i :| OccursAt(s, t, i);
      OccurrenceGivesIncludes(s, t, i);
    }
  }

  /** Nothing longer than `s` occurs in `s`. */
  lemma IncludesNeedsRoom(s: string, t: string)
    requires |t| > |s|
    ensures !Includes(s, t)
  {
    IncludesIffOccurs(s, t);
  }

  /** Substring containment is transitive. */
  lemma IncludesTransitive(a: string, b: string, c: string)
    requires Includes(a, b) && Includes(b, c)
    ensures Includes(a, c)
  {
    IncludesIffOccurs(a, b);
    IncludesIffOccurs(b, c);
    IncludesIffOccurs(a, c);
    var i :| OccursAt(a, b, i);
    var j :| OccursAt(b, c, j);
    forall k | 0 <= k < |c| ensures a[i + j + k] == c[k] {
      assert c[k] == b[j + k];
      assert b[j + k] == a[i..i + |b|][j + k];
    }
    assert a[i + j..i + j + |c|] == c;
    assert OccursAt(a, c, i + j);
  }

  /** `s.endsWith(suffix)`. */
  predicate EndsWith(s: string, suffix: string) {
    |suffix| <= |s| && s[|s| - |suffix|..] == suffix
  }

  /** An ASCII decimal digit, the class `\d` of JavaScript regular expressions. */
  predicate IsDigit(c: char) {
    '0' <= c <= '9'
  }

  predicate AllDigits(s: string) {
    forall i :: 0 <= i < |s| ==> IsDigit(s[i])
  }

  /** `s.replace(/\D/g, '')`: the digits of `s`, in order and with every
      copy kept; a subsequence with those copies is unique, so this fixes
      the strip. */
  function Digits(s: string): (r: string)
    ensures AllDigits(r)
    ensures |r| <= |s|
    ensures IsSubsequence(r, s)
    ensures forall c :: IsDigit(c) ==> multiset(r)[c] == multiset(s)[c]
  {
    FilterIsSubsequence(s, IsDigit);
    assert forall c :: IsDigit(c) ==> multiset(Filter(s, IsDigit))[c] == multiset(s)[c] by {
      forall c | IsDigit(c) ensures multiset(Filter(s, IsDigit))[c] == multiset(s)[c] {
        FilterKeepsEveryCopy(s, IsDigit, c);
      }
    }
    Filter(s, IsDigit)
  }

  /** The strip of one character: the character when it is a digit. */
  lemma DigitsOne(c: char)
    ensures Digits([c]) == if IsDigit(c) then [c] else []
  {
    assert [c][1..] == [];
  }

  /** A string of digits is its own digit strip. */
  lemma DigitsOfDigits(s: string)
    requires AllDigits(s)
    ensures Digits(s) == s
  {
    FilterKeepsAll(s, IsDigit);
  }

  /** The digit strip distributes over concatenation. */
  lemma {:induction false} DigitsAppend(a: string, b: string)
    ensures Digits(a + b) == Digits(a) + Digits(b)
    decreases |a|
  {
    if |a| == 0 {
      assert a + b == b;
    } else {
      assert (a + b)[0] == a[0];
      assert (a + b)[1..] == a[1..] + b;
      DigitsAppend(a[1..], b);
    }
  }

  function DigitChar(d: nat): (c: char)
    requires d < 10
    ensures IsDigit(c)
  {
    ('0' as int + d) as char
  }

  function DigitValue(c: char): (d: nat)
    requires IsDigit(c)
    ensures d < 10 && DigitChar(d) == c
  {
    c as int - '0' as int
  }

  /** The decimal rendering of a natural number (`String(n)`, template
      interpolation `${n}`). */
  function NatToString(n: nat): (r: string)
    ensures |r| > 0 && AllDigits(r)
    ensures |r| > 1 ==> r[0] != '0'
  {
    if n < 10 then [DigitChar(n)] else NatToString(n / 10) + [DigitChar(n % 10)]
  }

  /** The value of a string of decimal digits. */
  function ParseDecimal(s: string): nat
    requires AllDigits(s)
  {
    if |s| == 0 then 0 else 10 * ParseDecimal(s[..|s| - 1]) + DigitValue(s[|s| - 1])
  }

  /** Reading back a rendered number gives the number: the rendering loses
      nothing, so different numbers render differently. */
  lemma {:induction false} NatToStringRoundTrip(n: nat)
    ensures ParseDecimal(NatToString(n)) == n
  {
    if n >= 10 {
      var s := NatToString(n);
      assert s[..|s| - 1] == NatToString(n / 10);
      NatToStringRoundTrip(n / 10);
    }
  }

  /** Different numbers render as different strings. */
  lemma NatToStringInjective(m: nat, n: nat)
    requires NatToString(m) == NatToString(n)
    ensures m == n
  {
    NatToStringRoundTrip(m);
    NatToStringRoundTrip(n);
  }

  /** A digit string in the form `String(n)` produces: non-empty, and no
      leading zero unless it is "0" itself. */
  predicate IsCanonicalDecimal(s: string) {
    |s| > 0 && AllDigits(s) && (|s| > 1 ==> s[0] != '0')
  }

  /** A digit string with a non-zero first digit has a positive value. */
  lemma {:induction false} ParseDecimalPositive(s: string)
    requires |s| > 0 && AllDigits(s) && s[0] != '0'
    ensures ParseDecimal(s) > 0
    decreases |s|
  {
    if |s| > 1 {
      ParseDecimalPositive(s[..|s| - 1]);
    }
  }

  /** Canonical digit strings are exactly the renderings: rendering the
      value of one gives the string back. */
  lemma {:induction false} CanonicalDecimalRoundTrip(s: string)
    requires IsCanonicalDecimal(s)
    ensures NatToString(ParseDecimal(s)) == s
    decreases |s|
  {
    var last := s[|s| - 1];
    var d := DigitValue(last);
    if |s| == 1 {
      assert ParseDecimal(s) == d;
      assert s == [last];
    } else {
      var front := s[..|s| - 1];
      assert front[0] == s[0];
      CanonicalDecimalRoundTrip(front);
      ParseDecimalPositive(front);
      var p := ParseDecimal(front);
      var n := 10 * p + d;
      assert n / 10 == p && n % 10 == d;
      assert s == front + [last];
    }
  }

  /** Every rendering is canonical. */
  lemma NatToStringCanonical(n: nat)
    ensures IsCanonicalDecimal(NatToString(n))
  {
  }
}

=== FILE: types.dfy ===
/** The records of the marketplace (`MarketplaceItem`, `Category`) and the
    values the click and submit handlers produce. */
module Types {

  /** The four listing conditions. */
  datatype Condition = New | LikeNew | Good | Fair

  /** The string form each condition takes in a listing. */
  function ConditionValue(c: Condition): string {
    match c
    case New => "new"
    case LikeNew => "like-new"
    case Good => "good"
    case Fair => "fair"
  }

  /** `price` and `seller.rating` are JavaScript numbers; they are carried
      as reals and never computed with. `postedAt` is milliseconds since the
      epoch. */
  datatype Seller = Seller(name: string, avatar: string, rating: real)

  datatype Item = Item(
    id: string,
    title: string,
    price: real,
    description: string,
    category: string,
    image: string,
    seller: Seller,
    location: string,
    postedAt: int,
    condition: Condition)

  /** `count` is the precomputed badge number stored with the category. */
  datatype Category = Category(id: string, name: string, icon: string, count: int)

  /** What a click or submit handler does: change the selected category,
      navigate to a path, or nothing. */
  datatype Action = NoOp | SetCategory(id: string) | Navigate(path: string)

  /** The category id that means "no category filter". */
  const AllCategories: string := "all"

  /** The picture a listing gets when it was submitted without one. */
  const DefaultItemImage: string :=
    "https://images.pexels.com/photos/1649771/pexels-photo-1649771.jpeg?auto=compress&cs=tinysrgb&w=500"

  /** The category ids, in list order. */
  function CategoryIds(categories: seq<Category>): (ids: seq<string>)
    ensures |ids| == |categories|
    ensures forall i :: 0 <= i < |categories| ==> ids[i] == categories[i].id
  {
    if |categories| == 0 then [] else [categories[0].id] + CategoryIds(categories[1..])
  }

  /** No two items share an id. */
  predicate UniqueItemIds(items: seq<Item>) {
    forall i, j :: 0 <= i < j < |items| ==> items[i].id != items[j].id
  }
}
